=== FILE: README.md ===
# Literature harvester: decision rules

This project models, in Dafny, the pure decision rules inside a set of
scripts that harvest bibliographic records and PDF files from academic
portals (Wanfang, CNKI, PubMed). The browser and HTTP plumbing is not
modelled. What the rules see is passed in as data: JSON replies, page titles
and sources, directory listings, size readings, parser verdicts and hashes.
The rules covered are:

- **Wanfang keyword search** (`KeywordSearch`, keyword_search.dfy). It builds
  one query per extra keyword and walks the result pages of each query. It
  de-duplicates papers by article id across all queries, derives
  `ArticleDate`, and keeps only complete records.
- **PubMed downloader** (`Pubmed`, pubmed.dfy; `PubmedClean`, clean.dfy).
  - The DOI → PMID lookup with its `Unknown_PMID` fallback.
  - The `PMID_<pmid>.pdf` name.
  - The MD5 duplicate check against the target directory.
  - The decision of one attempt (move, skip as a duplicate, name conflict,
    invalid file, retry) and the retry-counting attempt loop.
  - The DOI filter and the closing summary.
  - The post-run pruning of duplicate PMID files (`clean_duplicates`).
- **CNKI downloader** (`Cnki`, cnkipdf.dfy).
  - The article id and output name taken from `filename=`.
  - The skip when the file exists and the two "not found" page messages.
  - The bounded scroll schedule of the green-button scan.
  - The polling of the download directory: two equal non-zero size
    readings, and `.pdf.part` → `.pdf`.
  - The `%PDF` + parser gate before the move.
- **Wanfang downloader** (`Wanfang`, wanfang.dfy).
  - The liveness check of a link and the `.aspx` article id.
  - The skip when the file exists and the 404 page.
  - The 600 s polling loop.
  - Link collection and the success/failure summary of the driver.
- **PubMed PDF-link finder** (`PdfLink`, pdflink.dfy).
  - The result shape of `check_url`.
  - The choice of PDF link: the first PDF embed, then the first `.pdf`
    anchor.
  - The three-valued `PDF_Avail` cell.
  - The guards of `download_pdf`.

Shared helpers:
- `Text` (text.dfy): `strip`, `split`, `[-1]`, `replace`, `lower`,
  `isdigit`, `str(int)`, `os.path.join` and `sorted` on strings.
- `Seqs` (seqs.dfy): first match and filter.
- `Files` (files.dfy): a directory as a list of named byte strings.
- `Wrappers` (wrappers.dfy): `Option`.

External effects are inputs:
- MD5 is an uninterpreted function `md5`.
- PyPDF2 is a boolean `parses` flag.
- BeautifulSoup is a function `parse` from HTML to the embeds and anchors of
  the page.
- A polling loop is the finite sequence of passes that fit in its time
  budget.
- A directory operation that can raise (`shutil.move`, `os.remove`) carries
  a success flag.

A few facts about the code shape the model:

- **Record de-duplication key.** The keyword search de-duplicates records by
  the stripped `article_id` alone.
- **PubMed retry budget.** A name collision, a content duplicate and an
  invalid file re-enter the attempt loop without spending a retry. See
  Findings.
- **File verification.**
  - The CNKI downloader checks the `%PDF` signature and runs the parser.
  - The PubMed downloader only runs the parser.
  - The Wanfang downloader moves the file unverified.
- **Query expansion.** There is one fixed query template per keyword,
  `主题:(<core> AND <keyword>)`.

## Model

| member | source | states |
|---|---|---|
| KeywordSearch.GenerateSearchQueries | wanfang_keyword_search.py:58-63 | one query per extra keyword, in input order, each `主题:(core AND keyword)`; no keywords give no queries |
| KeywordSearch.QueriesRoundTrip | wanfang_keyword_search.py:58-63 | the keyword can be read back out of its query, so distinct keywords give distinct queries |
| KeywordSearch.GetSearch | wanfang_keyword_search.py:42-54 | a 200 reply with a JSON body gives its `totalRow` and `data` (defaults 0 and []); a non-200 status, an exception or an undecodable body gives (0, []) |
| KeywordSearch.PagesRequested | wanfang_keyword_search.py:78-114 | pages are requested as 1, 2, 3, … without gaps; every page but the last was non-empty and its number did not pass the total it reported; the last one ends the query unless the request bound was reached |
| KeywordSearch.FailedReplyEndsQuery | wanfang_keyword_search.py:82-84 | a failed request (exception, non-200, bad JSON) is the last one made for its query |
| KeywordSearch.ArticleDate | wanfang_keyword_search.py:97-99 | the date is empty or the year text, and it is non-empty exactly when that text has at least four characters, all digits |
| KeywordSearch.IntYearDate | wanfang_keyword_search.py:98-99 | an integer year is kept exactly when it is at least 1000, and then as its decimal text |
| KeywordSearch.NoteNeverDecides | wanfang_keyword_search.py:94-110 | Note always starts with the detail-page prefix, so acceptance rests on the id, abstract and date alone |
| KeywordSearch.ViewsConsistent | wanfang_keyword_search.py:87-110 | every row carries its paper's id in its Note link, and a complete paper has non-empty id, abstract and date |
| KeywordSearch.ProcessIsReference | wanfang_keyword_search.py:86-111 | the loop marks every id it meets as seen and keeps exactly the complete first occurrences of each id, in encounter order |
| KeywordSearch.AcceptedFacts | wanfang_keyword_search.py:87-111 | kept records are complete, carry ids met in the stream, and no two share an article id |
| KeywordSearch.FirstCopyDecides | wanfang_keyword_search.py:89-92 | when the first paper with an id is incomplete, no kept record carries that id, even from a later complete copy |
| KeywordSearch.Harvest | wanfang_keyword_search.py:71-111 | the records of a whole run over all queries are the reference records, pairwise distinct by id and complete |
| Pubmed.PmidMap | pubmed.py:30 | the map's keys are the sheet's DOI texts, and a DOI maps to the PMID of its last row |
| Pubmed.DerivePmid | pubmed.py:90-92 | the mapped PMID when the DOI is a key with a non-blank value, otherwise "Unknown_PMID"; never blank |
| Pubmed.TargetNameIsTargetPdf | pubmed.py:52-55 | every `PMID_<pmid>.pdf` name is one the duplicate check compares against |
| Pubmed.CheckDuplicateInTarget | pubmed.py:51-59 | true exactly when some listed name passing the three name tests has the candidate's hash |
| Pubmed.Decide | pubmed.py:113-151 | an attempt moves its file exactly when it found a non-empty parseable PDF, the target name is free and no content duplicate exists; no PDF and an exception are the two retry branches; an empty or unparseable file is the invalid branch |
| Pubmed.MoveKeepsNamesUnique | pubmed.py:129-132 | a move keeps the target directory's names unique and every existing file in place, and the target name becomes present exactly when the attempt moved a file onto a free name |
| Pubmed.RetryLoop | pubmed.py:86-151 | retries never exceed 3 and count exactly the retry-branch attempts; success comes only from a move; a success never overwrote an existing name; the loop stops early only on success or an exhausted budget |
| Pubmed.AttemptsStartWithinBudget | pubmed.py:87 | no attempt starts once the retry budget is spent: before every attempt, the retries spent so far are below 3 |
| Pubmed.DownloadAndRename | pubmed.py:85-132 | with both corrections from Findings applied, a call is the corrected retry loop for `PMID_<pmid>.pdf`, the PMID looked up by the stripped DOI; it succeeds exactly when its last attempt moves the file, runs at most 3 attempts, adds exactly that one file which did not exist before, changes nothing on failure, and keeps names unique |
| Pubmed.ConflictNeverSpendsBudget | pubmed.py:122-128 | as written, any number of attempts that meet an existing name leave retries at 0 and never end the loop |
| Pubmed.BoundedRetryLoop | pubmed.py:162-163 | with every failed attempt counted, retries equal the attempts that did not move a file, so at most 3 attempts run; only the last attempt can move, success comes only from a move and never overwrites |
| Pubmed.BoundedConflictGivesUp | pubmed.py:122-128 | with the correction, attempts that keep meeting an existing target name give up after 3 with the directory unchanged |
| Pubmed.BoundedAgreesOnCountedFailures | pubmed.py:135-151 | the bounded loop and the loop as written agree whenever every failure is a no-PDF or exception attempt |
| Pubmed.ValidValues | pubmed.py:169 | exactly the present cells whose stripped text is not "DOI 未找到", as raw texts |
| Pubmed.DropDuplicates | pubmed.py:169 | same members as the input, each once |
| Pubmed.ProcessedDois | pubmed.py:169-176 | every DOI handed on is stripped and not the marker, and every valid cell's stripped text is handed on |
| Pubmed.ProcessedDoisFromCells | pubmed.py:169-176 | every DOI handed on is the stripped text of some valid cell |
| Pubmed.ProcessedDoisMayRepeat | pubmed.py:169-176 | de-duplication runs before stripping, so any two valid cells that differ only in surrounding whitespace give the same DOI twice |
| Pubmed.Summary | pubmed.py:178-179 | successes count the true results, failures the false ones, and they add up to the total |
| Pubmed.PaddedDoiLosesPmid | pubmed.py:90 | as written, any valid DOI cell with surrounding whitespace is handed on stripped, misses the map keyed by its raw text, and falls back to "Unknown_PMID" |
| Pubmed.StrippedLookupFindsPmid | pubmed.py:90-92 | with the map keyed by stripped DOIs, a row with a non-blank PMID, and no later row with the same stripped DOI, gets its own PMID |
| Pubmed.ProcessedDoiFindsPmid | pubmed.py:90-92 | with the map keyed by stripped DOIs, every processed DOI is a key, and its value is the PMID of the last row with that stripped DOI |
| PubmedClean.Key | pubmed.py:70 | the PMID key of a `PMID_` name never contains "_" |
| PubmedClean.KeyOfTargetName | pubmed.py:70 | the key of `PMID_<pmid>.pdf` is the PMID when the PMID holds no "_" and no ".pdf" |
| PubmedClean.SortedCandidates | pubmed.py:66-69 | the candidates (".pdf" in any case, "PMID_" prefix), in sorted order, with nothing added or lost |
| PubmedClean.FirstPerKey | pubmed.py:69-74 | each key maps to the position of its first occurrence; every later position of a seen key is a duplicate, in order; the two counts add up to the length |
| PubmedClean.PositionsToNames | pubmed.py:69-74 | in sorted order, the kept name of a key precedes every name with that key, and every other name is a duplicate |
| PubmedClean.CleanDuplicates | pubmed.py:65-74 | kept names are candidates carrying their key; every candidate's key is kept with the least such name; every other candidate is marked; kept and marked together count the candidates; with no name listed twice, a kept name is never marked |
| PubmedClean.CleanDirectory | pubmed.py:63-81 | only marked candidates are removed and every other file stays; in a real directory the kept file of each key survives; when every removal succeeds, each PMID key present before is left with that one file, the least candidate name with the key |
| Cnki.ArticleId | cnkipdf.py:90 | the id holds no "filename=", ends the URL, and is the whole URL when the key is absent |
| Cnki.ArticleIdAfterKey | cnkipdf.py:90-91 | the id of `<anything>filename=<id>` is `<id>` when `<id>` holds no further key |
| Cnki.VerifyPdf | cnkipdf.py:29-43 | true exactly when the file was readable, starts with `%PDF` and the parser accepts it |
| Cnki.Stops | cnkipdf.py:49-74 | the scan visits 1 to 5 positions, never one past the first that reaches the page bottom; fewer than 5 only when the bottom was reached |
| Cnki.GreenButtonPresent | cnkipdf.py:45-79 | true exactly when the heights were read and some visited screenshot shows green with only no-green screenshots before it |
| Cnki.PartToFinalEnd | cnkipdf.py:172-173 | a `.pdf.part` name maps to a name ending in ".pdf", and to `<stem>.pdf` when the stem has no other `.pdf.part` |
| Cnki.PartSampleGoesOnWithPdf | cnkipdf.py:170-178 | when the sampled file is `<stem>.pdf.part`, a pass that gets past the conversion wait saw the `.pdf` appear and verifies and moves `<stem>.pdf` |
| Cnki.PollStep | cnkipdf.py:163-197 | a pass decides only when a `.pdf`/`.pdf.part` file was listed and sampled twice with the same non-zero size; an unconverted `.pdf.part` fails; past that, a file `verify_pdf` rejects fails, a verified file that moves is saved with its bytes, and a failed move goes round again |
| Cnki.PollSamplesFirstDownload | cnkipdf.py:163-165 | the sampled file is the first listed name ending in ".pdf" or ".pdf.part" |
| Cnki.PollLoop | cnkipdf.py:160-201 | the loop times out exactly when no pass decides, and otherwise ends as its first deciding pass |
| Cnki.Browse | cnkipdf.py:115-158 | a failed page load ends with PageFailed and a not-found page with NotFound; a found page with a green button, a hover and a click ends as the polling loop; a save needs all of these |
| Cnki.DownloadPdf | cnkipdf.py:89-113 | an existing output file returns True with nothing changed; a fresh name ends as BrowserFailed without a browser and as the browser session otherwise; a save adds exactly the new `<id>.pdf` with `%PDF` content; otherwise nothing changes |
| Cnki.SavedPassedEveryGate | cnkipdf.py:120-190 | a saved file passed every gate: found page, button seen, hovered and clicked, stable size, converted `.part`, verified PDF |
| Cnki.EveryGatePassedSaves | cnkipdf.py:115-190 | conversely, a fresh name with every gate passed and a first deciding pass that verifies and moves its file saves those bytes as the new `<id>.pdf` |
| Cnki.NotFoundNeverDownloads | cnkipdf.py:120-124 | a not-found page leaves the directory untouched and succeeds only when the file was already there |
| Wanfang.CheckUrl | wanfang.py:40-51 | true exactly when the request returned status 200 and a body that is not all whitespace |
| Wanfang.ArticleId | wanfang.py:74 | the id holds no "/", and is the whole URL when it has neither "/" nor ".aspx" |
| Wanfang.ArticleIdOfDetailUrl | wanfang.py:74-75 | the id of `<anything>/<id>.aspx` is `<id>` when `<id>` holds neither "/" nor ".aspx" |
| Wanfang.TitleWith404 | wanfang.py:69-91 | any title containing "404" marks the page as missing whatever the source, so a call for a fresh name ends with Page404 and changes nothing |
| Wanfang.PollStep | wanfang.py:96-106 | a pass with a listed file saves exactly when the two readings are equal and non-zero and the move succeeds; an error reading or a failed move ends the call |
| Wanfang.PollLoop | wanfang.py:92-110 | the loop times out exactly when no pass decides, and otherwise ends as its first deciding pass; a save carries the bytes of a stably sized file |
| Wanfang.DownloadPdf | wanfang.py:73-114 | an existing output file returns True with nothing changed; for a fresh name a failed Chrome start is BrowserRaised, a failed page load Errored, a 404 page Page404, and any other page ends as the polling loop; a save adds exactly the new `<id>.pdf`; otherwise nothing changes |
| Wanfang.StableMoveSaves | wanfang.py:73-111 | a fresh name on a found page whose first deciding pass reads the same non-zero size twice and moves the file saves those bytes as the new `<id>.pdf` |
| Wanfang.Page404NeverDownloads | wanfang.py:89-91 | a 404 page leaves the directory untouched and succeeds only when the file was already there |
| Wanfang.DeadLinkFailsEvenIfPresent | wanfang.py:120-123 | a dead link fails even when its file is already present, although `download_pdf` alone would succeed |
| Wanfang.CollectLinks | wanfang.py:156-161 | the links are exactly the stripped texts of the present, non-empty cells |
| Wanfang.Summary | wanfang.py:180-181 | success counts the links that succeeded, failure the others, and they add up to the number of distinct links |
| Wanfang.Main | wanfang.py:163-181 | no links ends early; otherwise the run crashes exactly when `driver_path` is not an option of the parser or some link's Chrome fails to start, and else success counts the distinct links that succeeded and success and failure add up to their number |
| Wanfang.MainAsWrittenCrashes | wanfang.py:139-175 | as written, the parser defines only `excel`, `target_dir` and `threads`, so any run with a link raises at the first submit, whatever each link would do |
| Wanfang.MainCorrected | wanfang.py:163-181 | with a `driver_path` option added, no links ends early; the run crashes exactly when some link's Chrome fails to start; otherwise success counts the distinct links that succeeded and success and failure add up to their number |
| PdfLink.CheckUrl | pubmed2_pdflink.py:18-29 | the result has the error form exactly when there was no response or the status is 4xx/5xx; the error form carries that status and empty HTML; otherwise status, headers (default "Unknown") and text |
| PdfLink.FindPdfLink | pubmed2_pdflink.py:65-73 | the src of the first PDF embed when non-empty; otherwise a link exists exactly when some anchor's lower-cased href contains ".pdf", and it is the first such href |
| PdfLink.OnlyFirstEmbedInspected | pubmed2_pdflink.py:66-73 | when the first PDF embed has no or an empty src, whatever embeds follow it are ignored and the choice is that of the anchors alone |
| PdfLink.DownloadPdf | pubmed2_pdflink.py:31-46 | bytes are written exactly when the URL is non-empty, the fetch answered without an error status, and the content type mentions "application/pdf"; they are the body |
| PdfLink.SavePath | pubmed2_pdflink.py:79 | the save path ends in `<pmid>.pdf` |
| PdfLink.Judge | pubmed2_pdflink.py:60-82 | a request error is "No PDF"; the cell stays empty exactly for a non-error reply with empty HTML; "Has PDF" exactly when non-empty HTML yields a link |
| PdfLink.CellsDistinct | pubmed2_pdflink.py:61-82 | the three texts the `PDF_Avail` cell can hold (empty, "Has PDF", "No PDF") are pairwise distinct, so the cell tells which verdict was reached |
| PdfLink.ProcessRow | pubmed2_pdflink.py:53-82 | a skipped DOI leaves all three cells empty; otherwise the checked URL is recorded, the verdict is judged, a link is recorded exactly for "Has PDF"; a file is saved only for "Has PDF" under `<pmid>.pdf`, and a "Has PDF" row whose link yields PDF bytes always saves them there |
| PdfLink.WriteNeedsPdfReply | pubmed2_pdflink.py:75-80 | a written file belongs to a "Has PDF" row whose link answered with a PDF content type, under the row's PMID |
| PdfLink.ProcessDoiData | pubmed2_pdflink.py:48-84 | the cells of every row, in order; every write belongs to its row's saved file, every saved file is written, in row order |
| PdfLink.Gather | pubmed2_pdflink.py:53-82 | the loop keeps each row's cells in place and records exactly the rows that saved a file, in increasing row order |

## Left out

- Browser automation (Selenium, pyppeteer), HTTP requests, spreadsheet and CSV I/O, logging, progress bars and sleeps are I/O. Their results are inputs to the model.
- The thread pools (cnkipdf.py:236, wanfang.py:172) and the asyncio semaphore (pubmed.py:170-173) exist for parallelism. The model runs each item on its own, and results are summed over a set or sequence.
- OpenCV green-pixel detection is image processing over floating-point areas. Each screenshot is an observed `Green`/`NoGreen`/`ShotError`.
- PyPDF2 and MD5 are a boolean flag and an uninterpreted function.
- Time budgets (60 s, 600 s, the 5 s `.part` wait) are not modelled as time. A loop is the finite sequence of passes that fit, and the 5 s wait is one observed flag.
- The PubMed page navigation and selector search inside an attempt is not modelled step by step. Any failure there is the `Crashed` attempt. The temporary directory name and the choice of the newest file are folded into the attempt's observation.
- The CNKI `main` (dropna, then one task per link) and the Wanfang `get_and_save_file_list` are spreadsheet and directory I/O without a decision rule.
- cnki_base_search.py and cnki_advanced_search.py are straight-line browser scripts and are not part of this model.
- PdfLink.DownloadPdf: `Fetched.body` stands for the bytes the stream delivered. A stream broken mid-body raises a `RequestException`, which pubmed2_pdflink.py:45 catches, so the partial file stays at `save_path` and the row keeps "Has PDF". An `OSError` from opening or writing `save_path` (pubmed2_pdflink.py:40-43) escapes and would end the run; it is not modelled. The request at pubmed2_pdflink.py:35 has no timeout, so a stalled server would block the run without limit; this is not modelled either.
- Wanfang.CollectLinks: a `link` cell that pandas reads as a number, date or bool is not representable, because a cell is `Option<string>`. Such a cell passes `pd.isna(url) or not url` (wanfang.py:159), then `url.strip()` (wanfang.py:161) raises `AttributeError`, uncaught in `main`, and the run ends. The model covers text cells only.
- Pubmed.ProcessedDois: a DOI cell that pandas reads as a number, date or bool is not representable, because a cell is `Option<string>`. It passes the filter at pubmed.py:169, which compares its `astype(str)` text, and then `doi.strip()` (pubmed.py:176) raises `AttributeError` and the run ends. The model covers text cells only.
- `Text.Lower` and `Text.AllDigits` cover ASCII letters and digits only. Python's `lower` and `isdigit` also act on other Unicode characters. `Text.Strip` uses Python's full `isspace` set.
- `Text.PathJoin` joins POSIX-style. The scripts ran on Windows paths.
- KeywordSearch.PagesRequested: the number of requests per query is bounded by a `fuel` parameter. A server that keeps reporting a larger total would be asked without end; the model cuts that off.
- KeywordSearch.Harvest: a JSON `null` or a value of another type is not representable in `KeywordSearch.Paper` or `KeywordSearch.SearchBody`, where `None` stands for a missing key only. Some such values raise uncaught and end the whole run with nothing written: a `null` or non-string `article_id`, `summary` or `title` at `.strip()` (wanfang_keyword_search.py:87, 95, 96); a `null` or float `publish_year` at `len()` (:99); a `null` or string `totalRow` at the next `current_page <= total_count` test (:80). Others go on without raising, and the model does not cover them either: a bool `publish_year` passes `isinstance(..., int)` at :98 and becomes "True" or "False", so its date is empty while the id is still marked seen; a float `totalRow` is compared as a number at :80. A `null` `data` makes `not data_list` true at :83 and breaks the page loop exactly as a missing key does, so the model's `None` gives the same run for it.
- Wanfang.Main: the only exception modelled as escaping a task is a failed Chrome start. Failures of `tempfile.mkdtemp` or of `driver.quit` in the `finally` block would escape the same way and are not modelled.
- Pubmed.RetryLoop: attempts beyond the supplied observation sequence are not modelled. As written, the loop can run forever (see Findings).
- Cnki.PollStep: an `OSError` while checking the converted `.pdf` inside the 5 s wait is folded into the `finalReady` flag.
- The link of `process_doi_data` and the API endpoint of `get_search` are blank placeholders in the scripts. The model takes the URL builder as a parameter `urlFor`.

## Findings

| source | as written | input that shows it | evidently intended | confidence | as-written member | corrected member |
|---|---|---|---|---|---|---|
| pubmed.py:122-128 | a download that meets an existing target name (same or different content) or is invalid hits `continue` without `retries += 1` | an attempt loop in which the browser keeps producing a valid PDF whose target name already exists: retries stay 0 and the loop never ends | every unsuccessful attempt spends a retry, as the log message "Failed after MAX_RETRIES attempts" says | not executed; high | Pubmed.ConflictNeverSpendsBudget | Pubmed.BoundedRetryLoop |
| pubmed.py:90 | the DOI→PMID map is keyed by the raw DOI text (pubmed.py:30), but looked up with the stripped DOI (pubmed.py:176) | a sheet row with DOI " 10.1/x" and PMID "123": the lookup of "10.1/x" misses and the file is named `PMID_Unknown_PMID.pdf` | the lookup finds the row's PMID whatever whitespace surrounds the DOI | not executed; medium | Pubmed.PaddedDoiLosesPmid | Pubmed.ProcessedDoiFindsPmid |
| wanfang.py:175 | `args.driver_path` is read, but the parser (wanfang.py:139-143) defines no `--driver_path` option | any spreadsheet with at least one link: `AttributeError` is raised before a link is processed | a `--driver_path` option with default `None` | not executed; high | Wanfang.MainAsWrittenCrashes | Wanfang.MainCorrected |

=== FILE: clean.dfy ===
/** The post-run pruning of the PubMed downloader (`clean_duplicates` in
    pubmed.py): among the `PMID_*.pdf` files of the target directory, the
    first name in sorted order is kept for each PMID key and every later
    name with the same key is removed. */
module PubmedClean {
  import opened Wrappers
  import opened Text
  import opened Files
  import opened Seqs
  import opened Pubmed

  const Underscore: string := "_"

  /** A file the pruning looks at: ".pdf" in any case, and "PMID_" in
      front. */
  predicate IsCleanCandidate(name: string) {
    EndsWith(Lower(name), PdfSuffix) && StartsWith(name, PmidPrefix)
  }

  /** The candidates of a listing, in listing order. */
  function CleanCandidates(listing: seq<string>): seq<string> {
    Filter(listing, IsCleanCandidate)
  }

  /** A name that starts with the separator splits into at least two
      pieces. */
  lemma LeadingSepSplits(s: string, sep: string)
    requires sep != "" && StartsWith(s, sep)
    ensures |Split(s, sep)| >= 2
  {
    assert Contains(s, sep);
  }

  /** `name.split("PMID_")[1].split(".pdf")[0].split("_")[0]`: the text
      after the first "PMID_", cut at the first lower-case ".pdf" and then
      at the first "_". */
  function Key(name: string): (k: string)
    requires StartsWith(name, PmidPrefix)
    ensures !Contains(k, Underscore)
  {
    LeadingSepSplits(name, PmidPrefix);
    var afterPrefix := Split(name, PmidPrefix)[1];
    var beforePdf := Split(afterPrefix, PdfSuffix)[0];
    Split(beforePdf, Underscore)[0]
  }

  /** The first piece of `u + sep + v` is `u` when `u` does not contain a
      border-free `sep`. */
  lemma FirstPieceBeforeSep(u: string, sep: string, v: string)
    requires sep != "" && NoBorder(sep) && !Contains(u, sep)
    ensures Split(u + sep + v, sep)[0] == u
  {
    SplitAround(u, sep, v);
    OnePiece(u, sep);
  }

  /** A text containing a pattern contains each of its characters. */
  lemma {:induction false} ContainsKeepsChars(s: string, p: string, c: char)
    requires Contains(s, p) && c in p
    ensures c in s
    decreases |s|
  {
    if StartsWith(s, p) {
      assert s == s[..|p|] + s[|p|..];
    } else {
      ContainsKeepsChars(s[1..], p, c);
      assert s == [s[0]] + s[1..];
    }
  }

  /** Every name the downloader writes is keyed by its PMID, provided the
      PMID has no "_" and no ".pdf" in it (a numeric PMID, for one). */
  lemma KeyOfTargetName(pmid: string)
    requires '_' !in pmid && !Contains(pmid, PdfSuffix)
    ensures Key(TargetName(pmid)) == pmid
  {
    AfterPrefix(pmid);
    HeadUniqueNoBorder(PdfSuffix);
    FirstPieceBeforeSep(pmid, PdfSuffix, "");
    assert pmid + PdfSuffix + "" == pmid + PdfSuffix;
    WholeWhenAbsent(pmid);
  }

  /** The piece after "PMID_" in a stored name is the rest of the name. */
  lemma AfterPrefix(pmid: string)
    requires '_' !in pmid
    ensures Split(TargetName(pmid), PmidPrefix)[1] == pmid + PdfSuffix
  {
    var rest := pmid + PdfSuffix;
    assert TargetName(pmid) == "" + PmidPrefix + rest;
    assert '_' !in rest;
    if Contains(rest, PmidPrefix) {
      ContainsKeepsChars(rest, PmidPrefix, '_');
      assert false;
    }
    HeadUniqueNoBorder(PmidPrefix);
    SplitAround("", PmidPrefix, rest);
    OnePiece(rest, PmidPrefix);
    assert Pieces("", PmidPrefix) == [""];
  }

  /** A text without the separator is a single piece. */
  lemma OnePiece(s: string, sep: string)
    requires sep != "" && !Contains(s, sep)
    ensures Pieces(s, sep) == [s]
  {
    PiecesCount(s, sep);
    PiecesJoin(s, sep);
    assert |Pieces(s, sep)| == 1;
  }

  /** Cutting a text without "_" at the first "_" keeps all of it. */
  lemma WholeWhenAbsent(pmid: string)
    requires '_' !in pmid
    ensures Split(pmid, Underscore)[0] == pmid
  {
    ContainsChar(pmid, '_');
    assert Underscore == ['_'];
    OnePiece(pmid, Underscore);
  }

  /** The loop of `clean_duplicates` over positions: `firsts` maps each
      key to the position where it first occurs, `dups` lists, in order,
      every later position of a key already seen. */
  method FirstPerKey(keys: seq<string>) returns (firsts: map<string, nat>, dups: seq<nat>)
    ensures FirstsAndDups(keys, firsts, dups)
    ensures Increasing(dups)
  {
    firsts := map[];
    dups := [];
    var i := 0;
    while i < |keys|
      invariant Scanned(keys, firsts, dups, i)
      invariant Increasing(dups)
    {
      if keys[i] in firsts {
        RepeatStep(keys, firsts, dups, i);
        IncreasingAppend(dups, i);
        dups := dups + [i];
      } else {
        FreshStep(keys, firsts, dups, i);
        firsts := firsts[keys[i] := i];
      }
      i := i + 1;
    }
  }

  /** What the loop of `FirstPerKey` knows after the first `i` positions. */
  predicate Scanned(keys: seq<string>, firsts: map<string, nat>, dups: seq<nat>, i: nat) {
    && i <= |keys|
    && (forall k :: k in firsts ==> firsts[k] < i && keys[firsts[k]] == k)
    && (forall j :: 0 <= j < i ==> keys[j] in firsts && firsts[keys[j]] <= j)
    && (forall t :: 0 <= t < |dups| ==> dups[t] < i && firsts[keys[dups[t]]] < dups[t])
    && (forall j :: 0 <= j < i && firsts[keys[j]] < j ==> j in dups)
    && |firsts| + |dups| == i
  }

  /** The positions are listed in increasing order. */
  predicate Increasing(ps: seq<nat>) {
    forall a, b :: 0 <= a < b < |ps| ==> ps[a] < ps[b]
  }

  /** Appending a position past every listed one keeps the order. */
  lemma IncreasingAppend(ps: seq<nat>, i: nat)
    requires Increasing(ps) && forall t :: 0 <= t < |ps| ==> ps[t] < i
    ensures Increasing(ps + [i])
  {
  }

  /** A position whose key was seen before is appended to the duplicates. */
  lemma RepeatStep(keys: seq<string>, firsts: map<string, nat>, dups: seq<nat>, i: nat)
    requires i < |keys| && Scanned(keys, firsts, dups, i) && keys[i] in firsts
    ensures Scanned(keys, firsts, dups + [i], i + 1)
  {
    var more := dups + [i];
    assert forall j :: j in dups ==> j in more;
    assert more[|dups|] == i;
  }

  /** A position with a new key becomes that key's first position. */
  lemma FreshStep(keys: seq<string>, firsts: map<string, nat>, dups: seq<nat>, i: nat)
    requires i < |keys| && Scanned(keys, firsts, dups, i) && keys[i] !in firsts
    ensures Scanned(keys, firsts[keys[i] := i], dups, i + 1)
  {
    var more := firsts[keys[i] := i];
    assert forall j :: 0 <= j < i ==> more[keys[j]] == firsts[keys[j]];
  }

  /** The candidates in the order the loop visits them. */
  function SortedCandidates(listing: seq<string>): (names: seq<string>)
    ensures Sorted(names)
    ensures forall j :: 0 <= j < |names| ==> IsCleanCandidate(names[j])
    ensures forall j :: 0 <= j < |names| ==> StartsWith(names[j], PmidPrefix)
    ensures forall n :: n in names <==> n in CleanCandidates(listing)
    ensures multiset(names) == multiset(CleanCandidates(listing))
  {
    var cands := CleanCandidates(listing);
    var names := SortNames(cands);
    assert forall n :: n in names <==> n in cands by {
      forall n
        ensures n in names <==> n in cands
      {
        assert n in names <==> n in multiset(names);
      }
    }
    names
  }

  /** A listing without repeats gives sorted candidates without repeats. */
  lemma SortedCandidatesDistinct(listing: seq<string>)
    requires Distinct(listing)
    ensures Distinct(SortedCandidates(listing))
  {
    FilterDistinct(listing, IsCleanCandidate);
    DistinctCounts(CleanCandidates(listing));
    DistinctCounts(SortedCandidates(listing));
  }

  /** The key of each name. */
  function Keys(names: seq<string>): (keys: seq<string>)
    requires forall j :: 0 <= j < |names| ==> StartsWith(names[j], PmidPrefix)
    ensures |keys| == |names|
    ensures forall j :: 0 <= j < |names| ==> keys[j] == Key(names[j])
  {
    seq(|names|, j requires 0 <= j < |names| => Key(names[j]))
  }

  /** What `FirstPerKey` establishes about its result: the loop's
      knowledge once every position is scanned. */
  predicate FirstsAndDups(keys: seq<string>, firsts: map<string, nat>, dups: seq<nat>) {
    Scanned(keys, firsts, dups, |keys|)
  }

  /** The kept name of each key. */
  function KeptNames(names: seq<string>, firsts: map<string, nat>): (kept: map<string, string>)
    requires forall k :: k in firsts ==> firsts[k] < |names|
    ensures kept.Keys == firsts.Keys && |kept| == |firsts|
    ensures forall k :: k in kept ==> kept[k] == names[firsts[k]]
  {
    var kept := map k | k in firsts :: names[firsts[k]];
    assert kept.Keys == firsts.Keys;
    kept
  }

  /** The names at the given positions. */
  function NamesAt(names: seq<string>, dups: seq<nat>): (ds: seq<string>)
    requires forall t :: 0 <= t < |dups| ==> dups[t] < |names|
    ensures |ds| == |dups|
    ensures forall t :: 0 <= t < |dups| ==> ds[t] == names[dups[t]]
  {
    seq(|dups|, t requires 0 <= t < |dups| => names[dups[t]])
  }

  /** From positions to names: in a sorted list, the name kept for a key is
      ordered before every name with that key, and every other name is
      among the duplicates. */
  lemma PositionsToNames(names: seq<string>, keys: seq<string>, firsts: map<string, nat>, dups: seq<nat>)
    requires Sorted(names) && |keys| == |names| && FirstsAndDups(keys, firsts, dups)
    ensures var kept := KeptNames(names, firsts);
            forall j :: 0 <= j < |names| ==> keys[j] in kept && LexLe(kept[keys[j]], names[j])
    ensures var kept := KeptNames(names, firsts);
            var ds := NamesAt(names, dups);
            forall j :: 0 <= j < |names| ==> names[j] in ds || names[j] == kept[keys[j]]
  {
    KeptIsLeast(names, keys, firsts, dups);
    OthersMarked(names, keys, firsts, dups);
  }

  /** In a sorted list, the name at a key's first position is ordered
      before every name with that key. */
  lemma KeptIsLeast(names: seq<string>, keys: seq<string>, firsts: map<string, nat>, dups: seq<nat>)
    requires Sorted(names) && |keys| == |names| && FirstsAndDups(keys, firsts, dups)
    ensures var kept := KeptNames(names, firsts);
            forall j :: 0 <= j < |names| ==> keys[j] in kept && LexLe(kept[keys[j]], names[j])
  {
    var kept := KeptNames(names, firsts);
    forall j | 0 <= j < |names|
      ensures keys[j] in kept && LexLe(kept[keys[j]], names[j])
    {
      SortedAll(names, firsts[keys[j]], j);
    }
  }

  /** A name not at its key's first position is among the duplicates. */
  lemma OthersMarked(names: seq<string>, keys: seq<string>, firsts: map<string, nat>, dups: seq<nat>)
    requires |keys| == |names| && FirstsAndDups(keys, firsts, dups)
    ensures var kept := KeptNames(names, firsts);
            var ds := NamesAt(names, dups);
            forall j :: 0 <= j < |names| ==> names[j] in ds || names[j] == kept[keys[j]]
  {
    var kept := KeptNames(names, firsts);
    var ds := NamesAt(names, dups);
    forall j | 0 <= j < |names|
      ensures names[j] in ds || names[j] == kept[keys[j]]
    {
      if firsts[keys[j]] < j {
        var t :| 0 <= t < |dups| && dups[t] == j;
        assert ds[t] == names[j];
      }
    }
  }

  /** `clean_duplicates`: the names kept per key (`pmid_files`) and the
      names marked for removal (`duplicates`), over the candidates in sorted
      order. The kept name of each key is the least candidate with that
      key; every other candidate is marked for removal. */
  method CleanDuplicates(listing: seq<string>) returns (pmidFiles: map<string, string>, duplicates: seq<string>)
    ensures var names := SortedCandidates(listing);
            forall k :: k in pmidFiles ==> pmidFiles[k] in names && Key(pmidFiles[k]) == k
    ensures var names := SortedCandidates(listing);
            forall j :: 0 <= j < |names| ==>
              Key(names[j]) in pmidFiles && LexLe(pmidFiles[Key(names[j])], names[j])
    ensures var names := SortedCandidates(listing);
            forall n :: n in duplicates ==> n in names
    ensures var names := SortedCandidates(listing);
            forall j :: 0 <= j < |names| ==> names[j] in duplicates || names[j] == pmidFiles[Key(names[j])]
    ensures |pmidFiles| + |duplicates| == |CleanCandidates(listing)|
    ensures Distinct(listing) ==> forall k :: k in pmidFiles ==> pmidFiles[k] !in duplicates
  {
    var names := SortedCandidates(listing);
    var keys := Keys(names);
    var firsts, dups := FirstPerKey(keys);
    pmidFiles := KeptNames(names, firsts);
    duplicates := NamesAt(names, dups);
    PositionsToNames(names, keys, firsts, dups);
    if Distinct(listing) {
      SortedCandidatesDistinct(listing);
      KeptNotMarked(names, keys, firsts, dups);
    }
  }

  /** With no name listed twice, a kept name is never marked: a marked
      position is never the first position of its key. */
  lemma KeptNotMarked(names: seq<string>, keys: seq<string>, firsts: map<string, nat>, dups: seq<nat>)
    requires Distinct(names) && |keys| == |names| && FirstsAndDups(keys, firsts, dups)
    ensures forall k :: k in firsts ==> names[firsts[k]] !in NamesAt(names, dups)
  {
    var ds := NamesAt(names, dups);
    forall k, t | k in firsts && 0 <= t < |dups|
      ensures names[firsts[k]] != ds[t]
    {
      assert dups[t] != firsts[k];
    }
  }

  /** The whole of `clean_duplicates` on a directory: the candidates are
      the files' names, and every marked name is then removed, each removal
      succeeding or not as `removeOk` says. Nothing but marked candidates
      is removed, and a kept file is never removed. When every removal
      succeeds, each PMID key present before is left with a single file,
      and that file is the least candidate name with the key. */
  method CleanDirectory(dir: Dir, removeOk: string -> bool)
    returns (pmidFiles: map<string, string>, duplicates: seq<string>, dir': Dir)
    ensures forall e :: e in dir' ==> e in dir
    ensures forall e :: e in dir && !IsCleanCandidate(e.name) ==> e in dir'
    ensures forall e :: e in dir && IsCleanCandidate(e.name) ==>
              Key(e.name) in pmidFiles && LexLe(pmidFiles[Key(e.name)], e.name)
    ensures forall k :: k in pmidFiles ==> IsCleanCandidate(pmidFiles[k]) && Key(pmidFiles[k]) == k
    ensures UniqueNames(dir) ==>
              forall k :: k in pmidFiles ==> exists e :: e in dir' && e.name == pmidFiles[k]
    ensures (forall e :: e in dir ==> removeOk(e.name)) ==>
              forall e :: e in dir' && IsCleanCandidate(e.name) ==> e.name == pmidFiles[Key(e.name)]
  {
    var listing := Names(dir);
    pmidFiles, duplicates := CleanDuplicates(listing);
    dir' := Prune(dir, duplicates, removeOk);
    CandidateOfDir(dir);
    if UniqueNames(dir) {
      UniqueNamesDistinct(dir);
      KeptSurvives(dir, pmidFiles, duplicates, removeOk);
    }
  }

  /** A candidate file of the directory is among the sorted candidates of
      its listing, and a sorted candidate is the name of some file. */
  lemma CandidateOfDir(dir: Dir)
    ensures forall e :: e in dir && IsCleanCandidate(e.name) ==> e.name in SortedCandidates(Names(dir))
    ensures forall n :: n in SortedCandidates(Names(dir)) ==> exists e :: e in dir && e.name == n
  {
    var listing := Names(dir);
    forall e | e in dir && IsCleanCandidate(e.name)
      ensures e.name in SortedCandidates(listing)
    {
      var i :| 0 <= i < |dir| && dir[i] == e;
      assert listing[i] == e.name;
    }
    forall n | n in SortedCandidates(listing)
      ensures exists e :: e in dir && e.name == n
    {
      var i :| 0 <= i < |listing| && listing[i] == n;
      assert dir[i] in dir;
    }
  }

  /** An unmarked name's file survives the pruning. */
  lemma KeptSurvives(dir: Dir, pmidFiles: map<string, string>, duplicates: seq<string>, removeOk: string -> bool)
    requires forall k :: k in pmidFiles ==> pmidFiles[k] !in duplicates
    requires forall k :: k in pmidFiles ==> exists e :: e in dir && e.name == pmidFiles[k]
    ensures forall k :: k in pmidFiles ==>
              exists e :: e in Prune(dir, duplicates, removeOk) && e.name == pmidFiles[k]
  {
    forall k | k in pmidFiles
      ensures exists e :: e in Prune(dir, duplicates, removeOk) && e.name == pmidFiles[k]
    {
      var e :| e in dir && e.name == pmidFiles[k];
      assert e in Prune(dir, duplicates, removeOk);
    }
  }

  /** The directory after the removals: a name marked for removal is gone
      when `os.remove` succeeded on it (`removeOk`); a failed removal is
      only logged. */
  function Prune(dir: Dir, duplicates: seq<string>, removeOk: string -> bool): (dir': Dir)
    ensures forall e :: e in dir' ==> e in dir && !(e.name in duplicates && removeOk(e.name))
    ensures forall e :: e in dir && !(e.name in duplicates && removeOk(e.name)) ==> e in dir'
  {
    Filter(dir, (e: DirEntry) => !(e.name in duplicates && removeOk(e.name)))
  }
}

=== FILE: cnkipdf.dfy ===
/** The download rules of the CNKI downloader (cnkipdf.py): the article id
    and output name taken from the detail URL, the skip when that file is
    already in the target directory, the "not found" page, the bounded
    scroll schedule of the green-button scan, the polling of the browser's
    download directory (stable size, `.pdf.part` renamed to `.pdf`), and the
    `%PDF` gate before a file is moved into place.

    Firefox, the screenshots and PyPDF2 are not modelled: what they report
    is passed in as observations. */
module Cnki {
  import opened Wrappers
  import opened Text
  import opened Files
  import opened Seqs

  const FilenameKey: string := "filename="
  const PdfExt: string := ".pdf"
  const PartExt: string := ".pdf.part"
  const NotFoundLong: string := "Very sorry, the resource you are looking for was not found"
  const NotFoundShort: string := "Resource not found"
  const MaxScrolls: nat := 5
  const ScrollIncrement: nat := 500

  /** The bytes `%PDF`. */
  const PdfMagic: Bytes := [0x25, 0x50, 0x44, 0x46]

  // ---------------------------------------------------------------------
  // Article id and output name
  // ---------------------------------------------------------------------

  /** `detail_url.split('filename=')[-1]`. */
  function ArticleId(url: string): (id: string)
    ensures !Contains(id, FilenameKey)
    ensures EndsWith(url, id)
    ensures !Contains(url, FilenameKey) ==> id == url
  {
    LastPiece(url, FilenameKey)
  }

  /** The name the article is saved under in the target directory. */
  function OutputName(url: string): string {
    ArticleId(url) + PdfExt
  }

  lemma FilenameKeyNoBorder()
    ensures NoBorder(FilenameKey)
  {
    HeadUniqueNoBorder(FilenameKey);
  }

  /** Whatever precedes the last `filename=`, the id is exactly the text
      after it. */
  lemma ArticleIdAfterKey(prefix: string, id: string)
    requires !Contains(id, FilenameKey)
    ensures ArticleId(prefix + FilenameKey + id) == id
  {
    FilenameKeyNoBorder();
    LastPieceAfterSep(prefix, FilenameKey, id);
  }

  // ---------------------------------------------------------------------
  // verify_pdf
  // ---------------------------------------------------------------------

  /** What opening a file reports: an exception, or its bytes together with
      whether PyPDF2 accepts them. */
  datatype PdfProbe = Unreadable | Readable(content: Bytes, parses: bool)

  /** `f.read(n)`: at most the first `n` bytes. */
  function ReadUpTo(c: Bytes, n: nat): Bytes {
    if |c| <= n then c else c[..n]
  }

  /** The first four bytes are `%PDF`. */
  predicate HasPdfMagic(c: Bytes) {
    |c| >= 4 && c[..4] == PdfMagic
  }

  /** `verify_pdf`: the four-byte header check, then the parser; any
      exception is a rejection. A short file fails the header check. */
  function VerifyPdf(p: PdfProbe): (ok: bool)
    ensures ok <==> p.Readable? && HasPdfMagic(p.content) && p.parses
  {
    match p
    case Unreadable => false
    case Readable(c, parses) => if ReadUpTo(c, 4) != PdfMagic then false else parses
  }

  // ---------------------------------------------------------------------
  // is_green_button_present
  // ---------------------------------------------------------------------

  /** `document.body.scrollHeight` and `window.innerHeight`. */
  datatype Heights = Heights(total: int, window: int)

  /** What the screenshot at one scroll position shows. */
  datatype Shot = Green | NoGreen | ShotError

  /** The viewport scrolled to step `i` reaches the bottom of the page. */
  predicate AtBottom(h: Heights, i: nat) {
    i * ScrollIncrement + h.window >= h.total
  }

  /** How many scroll positions the scan visits when no screenshot decides:
      steps 0, 1, ... up to and including the first one at the bottom of
      the page, and never more than `MaxScrolls`. */
  function Stops(h: Heights): (n: nat)
    ensures 1 <= n <= MaxScrolls
    ensures forall i :: 0 <= i < n - 1 ==> !AtBottom(h, i)
    ensures n < MaxScrolls ==> AtBottom(h, n - 1)
    ensures h.total - h.window <= (MaxScrolls - 1) * ScrollIncrement ==> AtBottom(h, n - 1)
  {
    StopsFrom(h, 0)
  }

  function StopsFrom(h: Heights, i: nat): (n: nat)
    requires i < MaxScrolls
    ensures i < n <= MaxScrolls
    ensures forall j :: i <= j < n - 1 ==> !AtBottom(h, j)
    ensures n < MaxScrolls ==> AtBottom(h, n - 1)
    decreases MaxScrolls - i
  {
    if AtBottom(h, i) || i == MaxScrolls - 1 then i + 1 else StopsFrom(h, i + 1)
  }

  /** The scan from step `i` on: the first screenshot that shows green
      decides true, one that fails decides false, and reaching the bottom
      or the last step without either decides false. The second component
      is the number of screenshots taken. */
  function ScanFrom(h: Heights, shots: nat -> Shot, i: nat): (r: (bool, nat))
    requires i < Stops(h)
    ensures i < r.1 <= Stops(h)
    ensures forall j :: i <= j < r.1 - 1 ==> shots(j) == NoGreen
    ensures r.0 <==> shots(r.1 - 1) == Green
    ensures shots(r.1 - 1) == NoGreen ==> r.1 == Stops(h)
    decreases Stops(h) - i
  {
    match shots(i)
    case Green => (true, i + 1)
    case ShotError => (false, i + 1)
    case NoGreen => if i + 1 == Stops(h) then (false, i + 1) else ScanFrom(h, shots, i + 1)
  }

  /** Among the first `n` screenshots there is a green one, and every
      screenshot before it was taken and showed no green. */
  predicate GreenBeforeAnyError(shots: nat -> Shot, n: nat) {
    exists k :: 0 <= k < n && shots(k) == Green && forall j :: 0 <= j < k ==> shots(j) == NoGreen
  }

  /** `is_green_button_present`: `None` heights is the exception raised by
      the height queries; every exception makes the answer false. */
  function GreenButtonPresent(heights: Option<Heights>, shots: nat -> Shot): (found: bool)
    ensures found ==> heights.Some?
    ensures found <==> heights.Some? && GreenBeforeAnyError(shots, Stops(heights.value))
  {
    match heights
    case None => false
    case Some(h) =>
      var r := ScanFrom(h, shots, 0);
      if r.0 then true
      else
        FirstGreenFails(h, shots, r.1);
        false
  }

  /** After a non-deciding scan, no visited step is a first green. */
  lemma FirstGreenFails(h: Heights, shots: nat -> Shot, n: nat)
    requires 1 <= n <= Stops(h)
    requires forall j :: 0 <= j < n - 1 ==> shots(j) == NoGreen
    requires shots(n - 1) != Green
    requires shots(n - 1) == NoGreen ==> n == Stops(h)
    ensures !GreenBeforeAnyError(shots, Stops(h))
  {
    forall k | 0 <= k < Stops(h) && shots(k) == Green
      ensures exists j :: 0 <= j < k && shots(j) != NoGreen
    {
      assert k > n - 1;
      assert shots(n - 1) != NoGreen;
    }
  }

  // ---------------------------------------------------------------------
  // Polling the download directory
  // ---------------------------------------------------------------------

  /** A name the poll looks at: a finished or a partial Firefox download. */
  predicate IsDownloadName(n: string) {
    EndsWith(n, PdfExt) || EndsWith(n, PartExt)
  }

  /** `filepath.replace('.pdf.part', '.pdf')`. */
  function PartToFinal(path: string): string {
    ReplaceAll(path, PartExt, PdfExt)
  }

  lemma PartExtNoBorder()
    ensures NoBorder(PartExt)
  {
    var p := PartExt;
    forall k | 0 < k < |p|
      ensures !IsBorder(p, k)
    {
      if k == 4 {
        assert p[k..][2] != p[..|p| - k][2];
      } else {
        assert p[k..][0] != p[..|p| - k][0];
      }
    }
  }

  /** A partial download maps to its finished name: `.pdf.part` at the end
      becomes `.pdf`, and a stem without another `.pdf.part` is kept. */
  lemma PartToFinalEnd(stem: string)
    ensures EndsWith(PartToFinal(stem + PartExt), PdfExt)
    ensures !Contains(stem, PartExt) ==> PartToFinal(stem + PartExt) == stem + PdfExt
  {
    PartExtNoBorder();
    ReplaceAtEnd(stem, PartExt, PdfExt);
    var r := ReplaceAll(stem, PartExt, PdfExt) + PdfExt;
    assert r[|r| - |PdfExt|..] == PdfExt;
  }

  /** One pass of the polling loop: the listing of the download directory,
      the two readings of the first candidate, whether the `.pdf` of a
      `.pdf.part` appeared non-empty within the 5 s extra wait, what
      `verify_pdf` sees of the file, and whether `shutil.move` succeeded
      (it raises `OSError` otherwise). */
  datatype Poll = Poll(listing: seq<string>, sizes: Sizes, finalReady: bool, probe: PdfProbe, moveOk: bool)

  /** The files the poll considers, in listing order. */
  function Candidates(listing: seq<string>): seq<string> {
    Filter(listing, IsDownloadName)
  }

  /** How a call of `download_pdf` ends. */
  datatype Outcome =
    | AlreadyPresent            // returns True before any browser
    | BrowserFailed             // Firefox did not start
    | PageFailed                // an exception while loading the page
    | NotFound                  // the page says the resource does not exist
    | NoGreenButton
    | HoverFailed
    | ClickFailed
    | PartNotConverted          // the `.pdf` of a `.pdf.part` did not appear
    | BadPdf                    // `verify_pdf` rejected the completed file
    | TimedOut                  // no pass of the 60 s loop decided
    | Saved(content: Bytes)     // moved into the target directory

  /** `download_pdf` returns True. */
  predicate Succeeded(o: Outcome) {
    o.AlreadyPresent? || o.Saved?
  }

  /** One pass of the loop: `None` when it goes round again (nothing to
      sample, readings unequal or zero, an `OSError`). */
  function PollStep(p: Poll): (o: Option<Outcome>)
    ensures o.Some? ==> |Candidates(p.listing)| > 0 && Stable(p.sizes)
    ensures o.Some? ==> o.value.PartNotConverted? || o.value.BadPdf? || o.value.Saved?
    ensures o == Some(PartNotConverted) <==>
              |Candidates(p.listing)| > 0 && Stable(p.sizes)
              && EndsWith(Candidates(p.listing)[0], PartExt) && !p.finalReady
    ensures o.Some? && o.value.Saved? ==> VerifyPdf(p.probe) && o.value.content == p.probe.content
    ensures o == Some(BadPdf) ==> !VerifyPdf(p.probe)
    ensures (|Candidates(p.listing)| > 0 && Stable(p.sizes)
             && !(EndsWith(Candidates(p.listing)[0], PartExt) && !p.finalReady)) ==>
              o == (if !VerifyPdf(p.probe) then Some(BadPdf)
                    else if p.moveOk then Some(Saved(p.probe.content)) else None)
  {
    var files := Candidates(p.listing);
    if |files| == 0 || !Stable(p.sizes) then None
    else if EndsWith(files[0], PartExt) && !p.finalReady then Some(PartNotConverted)
    else if !VerifyPdf(p.probe) then Some(BadPdf)
    else if p.moveOk then Some(Saved(p.probe.content))
    else None
  }

  /** The file `verify_pdf` reads and `shutil.move` moves: the sampled
      candidate, or for a `.pdf.part` the `.pdf` it turned into. */
  function VerifiedFile(p: Poll): string
    requires |Candidates(p.listing)| > 0
  {
    var f := Candidates(p.listing)[0];
    if EndsWith(f, PartExt) then PartToFinal(f) else f
  }

  /** When the sampled candidate is `<stem>.pdf.part`, a pass that gets past
      the conversion wait saw the `.pdf` appear and goes on with
      `<stem>.pdf`. */
  lemma PartSampleGoesOnWithPdf(p: Poll, stem: string)
    requires |Candidates(p.listing)| > 0 && Candidates(p.listing)[0] == stem + PartExt
    requires !Contains(stem, PartExt)
    requires Decides(p) && PollStep(p) != Some(PartNotConverted)
    ensures p.finalReady && VerifiedFile(p) == stem + PdfExt
  {
    var f := stem + PartExt;
    assert f[|f| - |PartExt|..] == PartExt;
    PartToFinalEnd(stem);
  }

  /** The pass decides the call. */
  predicate Decides(p: Poll) {
    PollStep(p).Some?
  }

  /** The polling loop over the passes that fit in the 60 s budget. */
  function PollLoop(polls: seq<Poll>): (o: Outcome)
    ensures o == TimedOut <==> forall k :: 0 <= k < |polls| ==> !Decides(polls[k])
    ensures o != TimedOut ==> FirstWhere(polls, Decides) < |polls|
                              && o == PollStep(polls[FirstWhere(polls, Decides)]).value
  {
    var k := FirstWhere(polls, Decides);
    if k < |polls| then PollStep(polls[k]).value else TimedOut
  }

  // ---------------------------------------------------------------------
  // download_pdf
  // ---------------------------------------------------------------------

  /** What the browser session observed, step by step. `page` is `None`
      when loading the detail page raised. */
  datatype Session = Session(page: Option<string>, heights: Option<Heights>, shots: nat -> Shot,
                             hoverOk: bool, clickOk: bool, polls: seq<Poll>)

  /** The page source carries one of the two "not found" messages. */
  predicate NotFoundPage(src: string) {
    Contains(src, NotFoundLong) || Contains(src, NotFoundShort)
  }

  /** Everything after Firefox started. */
  function Browse(s: Session): (o: Outcome)
    ensures o.Saved? ==> s.page.Some? && !NotFoundPage(s.page.value)
                         && GreenButtonPresent(s.heights, s.shots) && s.hoverOk && s.clickOk
    ensures s.page.Some? && NotFoundPage(s.page.value) ==> o == NotFound
    ensures s.page.None? ==> o == PageFailed
    ensures (s.page.Some? && !NotFoundPage(s.page.value) && GreenButtonPresent(s.heights, s.shots)
             && s.hoverOk && s.clickOk) ==> o == PollLoop(s.polls)
    ensures o != AlreadyPresent && o != BrowserFailed
  {
    match s.page
    case None => PageFailed
    case Some(src) =>
      if NotFoundPage(src) then NotFound
      else if !GreenButtonPresent(s.heights, s.shots) then NoGreenButton
      else if !s.hoverOk then HoverFailed
      else if !s.clickOk then ClickFailed
      else PollLoop(s.polls)
  }

  /** A call of `download_pdf` and the target directory afterwards. */
  datatype Run = Run(outcome: Outcome, dir: Dir)

  /** `download_pdf(detail_url, target_dir)`; `browser` is `None` when
      Firefox failed to start. */
  function DownloadPdf(url: string, dir: Dir, browser: Option<Session>): (r: Run)
    ensures NameExists(dir, OutputName(url)) ==> r == Run(AlreadyPresent, dir)
    ensures !NameExists(dir, OutputName(url)) && browser.None? ==> r.outcome == BrowserFailed
    ensures !NameExists(dir, OutputName(url)) && browser.Some? ==> r.outcome == Browse(browser.value)
    ensures r.outcome.Saved? ==> !NameExists(dir, OutputName(url)) && HasPdfMagic(r.outcome.content)
                                 && r.dir == dir + [DirEntry(OutputName(url), r.outcome.content)]
    ensures !r.outcome.Saved? ==> r.dir == dir
  {
    var name := OutputName(url);
    if NameExists(dir, name) then Run(AlreadyPresent, dir)
    else match browser
      case None => Run(BrowserFailed, dir)
      case Some(s) =>
        var o := Browse(s);
        if o.Saved? then Run(o, dir + [DirEntry(name, o.content)]) else Run(o, dir)
  }

  /** A saved file went through every gate: the page was found, the button
      seen, hovered and clicked, and the first deciding pass sampled a
      candidate twice with the same non-zero size and verified it as a PDF
      (after its `.pdf` appeared, for a partial download). */
  lemma SavedPassedEveryGate(url: string, dir: Dir, s: Session)
    requires DownloadPdf(url, dir, Some(s)).outcome.Saved?
    ensures s.page.Some? && !NotFoundPage(s.page.value)
    ensures GreenButtonPresent(s.heights, s.shots) && s.hoverOk && s.clickOk
    ensures FirstWhere(s.polls, Decides) < |s.polls|
    ensures var p := s.polls[FirstWhere(s.polls, Decides)];
            var files := Candidates(p.listing);
            |files| > 0 && Stable(p.sizes) && VerifyPdf(p.probe)
            && (EndsWith(files[0], PartExt) ==> p.finalReady)
            && DownloadPdf(url, dir, Some(s)).outcome.content == p.probe.content
  {
  }

  /** The converse: when every gate passes and the first deciding pass
      verifies its file and moves it, the call saves that file's bytes
      under the output name. */
  lemma EveryGatePassedSaves(url: string, dir: Dir, s: Session)
    requires !NameExists(dir, OutputName(url))
    requires s.page.Some? && !NotFoundPage(s.page.value)
    requires GreenButtonPresent(s.heights, s.shots) && s.hoverOk && s.clickOk
    requires FirstWhere(s.polls, Decides) < |s.polls|
    requires var p := s.polls[FirstWhere(s.polls, Decides)];
             VerifyPdf(p.probe) && p.moveOk
             && (EndsWith(Candidates(p.listing)[0], PartExt) ==> p.finalReady)
    ensures var p := s.polls[FirstWhere(s.polls, Decides)];
            DownloadPdf(url, dir, Some(s))
              == Run(Saved(p.probe.content), dir + [DirEntry(OutputName(url), p.probe.content)])
  {
  }

  /** The poll samples the first listed `.pdf` or `.pdf.part` file. */
  lemma PollSamplesFirstDownload(p: Poll)
    requires Decides(p)
    ensures FirstWhere(p.listing, IsDownloadName) < |p.listing|
    ensures Candidates(p.listing)[0] == p.listing[FirstWhere(p.listing, IsDownloadName)]
  {
    FilterHeadIsFirst(p.listing, IsDownloadName);
  }

  /** A "not found" page never downloads: the call fails, the directory is
      untouched, unless the file was there already. */
  lemma NotFoundNeverDownloads(url: string, dir: Dir, s: Session)
    requires s.page.Some? && NotFoundPage(s.page.value)
    ensures var r := DownloadPdf(url, dir, Some(s));
            r.dir == dir && (Succeeded(r.outcome) <==> NameExists(dir, OutputName(url)))
  {
  }
}

=== FILE: files.dfy ===
/** File contents and directories as the download rules see them. Nothing
    here touches a disk: a directory is the listing `os.listdir` returned,
    with each file's bytes. */
module Files {
  import opened Seqs

  newtype Byte = b: int | 0 <= b < 256

  type Bytes = seq<Byte>

  /** One file of a directory listing. */
  datatype DirEntry = DirEntry(name: string, content: Bytes)

  /** A directory, in listing order. */
  type Dir = seq<DirEntry>

  /** `os.path.exists(os.path.join(dir, name))`. */
  predicate NameExists(dir: Dir, name: string)
    decreases |dir|
  {
    |dir| > 0 && (dir[0].name == name || NameExists(dir[1..], name))
  }

  /** No two files of the listing share a name, as in a real directory. */
  predicate UniqueNames(dir: Dir) {
    forall i, j :: 0 <= i < j < |dir| ==> dir[i].name != dir[j].name
  }

  /** `os.listdir`: the names of the listing, in order. */
  function Names(dir: Dir): (names: seq<string>)
    ensures |names| == |dir|
    ensures forall i :: 0 <= i < |dir| ==> names[i] == dir[i].name
  {
    seq(|dir|, i requires 0 <= i < |dir| => dir[i].name)
  }

  /** Unique names are a listing free of repeats. */
  lemma UniqueNamesDistinct(dir: Dir)
    ensures UniqueNames(dir) <==> Distinct(Names(dir))
  {
  }

  /** A name exists exactly when some entry carries it. */
  lemma {:induction false} NameExistsAt(dir: Dir, name: string)
    ensures NameExists(dir, name) <==> exists i :: 0 <= i < |dir| && dir[i].name == name
    decreases |dir|
  {
    if |dir| > 0 {
      NameExistsAt(dir[1..], name);
      if NameExists(dir[1..], name) {
        var i :| 0 <= i < |dir| - 1 && dir[1..][i].name == name;
        assert dir[i + 1].name == name;
      }
    }
  }

  /** Adding a file under a free name keeps the names unique, and the name
      exists afterwards. */
  lemma AddFreshKeepsUnique(dir: Dir, e: DirEntry)
    requires UniqueNames(dir) && !NameExists(dir, e.name)
    ensures UniqueNames(dir + [e]) && NameExists(dir + [e], e.name)
  {
    NameExistsAt(dir, e.name);
    NameExistsAt(dir + [e], e.name);
    assert (dir + [e])[|dir|].name == e.name;
  }

  /** Two `os.path.getsize` readings of a file that is being downloaded,
      taken a moment apart, or the `OSError` raised by one of them. */
  datatype Sizes = SizeError | Sizes(first: nat, second: nat)

  /** A download counts as complete when both readings agree and are not 0. */
  predicate Stable(s: Sizes) {
    s.Sizes? && s.first == s.second && s.first > 0
  }
}

=== FILE: keyword_search.dfy ===
/** The Wanfang keyword search (wanfang_keyword_search.py): one query per
    extra keyword, page-by-page traversal of the JSON search API, and the
    rules that decide which papers become output records.

    HTTP is not modelled: the API's reply to `(query, page)` is an input
    function `replies`, and each reply is either an exception or a status
    with an optional decoded JSON body. */
module KeywordSearch {
  import opened Wrappers
  import opened Text

  // ---------------------------------------------------------------------
  // generate_search_queries
  // ---------------------------------------------------------------------

  const TopicOpen: string := "主题:("
  const AndJoin: string := " AND "
  const TopicClose: string := ")"

  /** The advanced-search expression for one extra keyword. */
  function Query(core: string, keyword: string): string {
    TopicOpen + core + AndJoin + keyword + TopicClose
  }

  /** `generate_search_queries`: exactly one query per extra keyword, in the
      order the keywords are given. */
  function GenerateSearchQueries(core: string, additional: seq<string>): (queries: seq<string>)
    ensures |queries| == |additional|
    ensures forall i :: 0 <= i < |additional| ==> queries[i] == Query(core, additional[i])
  {
    if |additional| == 0 then []
    else [Query(core, additional[0])] + GenerateSearchQueries(core, additional[1..])
  }

  /** The keyword a query was built from, read back out of the query text. */
  function KeywordOf(core: string, query: string): string
    requires |query| >= |TopicOpen| + |core| + |AndJoin| + |TopicClose|
  {
    query[|TopicOpen| + |core| + |AndJoin|..|query| - |TopicClose|]
  }

  /** Every generated query gives back its keyword, so distinct keywords
      give distinct queries. */
  lemma QueriesRoundTrip(core: string, additional: seq<string>)
    ensures forall i :: 0 <= i < |additional| ==>
              KeywordOf(core, GenerateSearchQueries(core, additional)[i]) == additional[i]
    ensures forall i, j :: 0 <= i < j < |additional| && additional[i] != additional[j] ==>
              GenerateSearchQueries(core, additional)[i] != GenerateSearchQueries(core, additional)[j]
  {
    var qs := GenerateSearchQueries(core, additional);
    forall i | 0 <= i < |additional|
      ensures KeywordOf(core, qs[i]) == additional[i]
    {
      var q := qs[i];
      assert q == TopicOpen + core + AndJoin + additional[i] + TopicClose;
      assert q[|TopicOpen| + |core| + |AndJoin|..|q| - |TopicClose|] == additional[i];
    }
  }

  // ---------------------------------------------------------------------
  // get_search
  // ---------------------------------------------------------------------

  /** `publish_year` as the API may send it: missing, an integer or text. */
  datatype Year = Absent | IntYear(n: int) | TextYear(s: string)

  /** One element of the reply's `data` list; `None` is a missing key. */
  datatype Paper = Paper(
    articleId: Option<string>,
    summary: Option<string>,
    title: Option<string>,
    publishYear: Year)

  /** The decoded JSON body; `None` is a missing key. */
  datatype SearchBody = SearchBody(totalRow: Option<int>, data: Option<seq<Paper>>)

  /** What the HTTP layer observed for one request: an exception, or a status
      code with the body if it decoded as JSON (`None` when `resp.json()`
      raised). */
  datatype Reply = Raised | Answered(status: int, json: Option<SearchBody>)

  /** The `(total_count, data_list)` pair `get_search` returns. */
  datatype Page = Page(total: int, data: seq<Paper>)

  predicate Usable(reply: Reply) {
    reply.Answered? && reply.status == 200 && reply.json.Some?
  }

  /** `get_search`: the reported total and paper list of a 200 reply, each
      defaulting when absent; any other outcome is `(0, [])`. */
  function GetSearch(reply: Reply): (page: Page)
    ensures !Usable(reply) ==> page == Page(0, [])
    ensures Usable(reply) ==> page.data == reply.json.value.data.GetOr([])
    ensures Usable(reply) ==> page.total == reply.json.value.totalRow.GetOr(0)
  {
    match reply
    case Raised => Page(0, [])
    case Answered(status, json) =>
      if status != 200 then Page(0, [])
      else match json
        case None => Page(0, [])
        case Some(body) => Page(body.totalRow.GetOr(0), body.data.GetOr([]))
  }

  // ---------------------------------------------------------------------
  // Paging: `while current_page <= total_count`
  // ---------------------------------------------------------------------

  /** After page `n` came back as `p`, the loop asks for page `n + 1`. */
  predicate Continues(p: Page, n: nat) {
    p.data != [] && n + 1 <= p.total
  }

  /** The page numbers requested for one query, starting at `page`. The
      first request is unconditional (`total_count` starts at 1 and
      `current_page` at 1); each later one happens only when the previous
      page was non-empty and its number did not pass the total it reported.
      `fuel` bounds the number of requests: a server that keeps reporting a
      larger total would otherwise be asked forever. */
  function PagesRequested(query: string, replies: (string, nat) -> Reply, page: nat, fuel: nat)
    : (pages: seq<nat>)
    ensures |pages| <= fuel
    ensures fuel > 0 ==> |pages| > 0
    ensures forall i :: 0 <= i < |pages| ==> pages[i] == page + i
    ensures forall i :: 0 <= i < |pages| - 1 ==>
              Continues(GetSearch(replies(query, pages[i])), pages[i])
    ensures 0 < |pages| < fuel ==>
              !Continues(GetSearch(replies(query, pages[|pages| - 1])), pages[|pages| - 1])
    decreases fuel
  {
    if fuel == 0 then []
    else if !Continues(GetSearch(replies(query, page)), page) then [page]
    else [page] + PagesRequested(query, replies, page + 1, fuel - 1)
  }

  /** A failed request (exception, non-200 status, undecodable body) is the
      last one made for its query. */
  lemma FailedReplyEndsQuery(query: string, replies: (string, nat) -> Reply, fuel: nat, i: nat)
    requires i < |PagesRequested(query, replies, 1, fuel)|
    requires !Usable(replies(query, PagesRequested(query, replies, 1, fuel)[i]))
    ensures i == |PagesRequested(query, replies, 1, fuel)| - 1
  {
  }

  // ---------------------------------------------------------------------
  // Per-paper acceptance in main()
  // ---------------------------------------------------------------------

  const DetailPrefix: string := "https://www.wanfangdata.com.cn/details/detail.do?_type=perio&id="

  /** A paper as met during the run, with the query that returned it. */
  datatype Entry = Entry(query: string, paper: Paper)

  /** One row of the exported table. */
  datatype Record = Record(
    note: string,
    item: string,
    title: string,
    abstractText: string,
    articleDate: string,
    raw: Paper)

  /** The de-duplication key: the stripped `article_id`, "" when missing. */
  function ArticleId(p: Paper): string {
    Strip(p.articleId.GetOr(""))
  }

  /** `publish_year` as text: integers go through `str`. */
  function YearText(y: Year): string {
    match y
    case Absent => ""
    case IntYear(n) => IntToString(n)
    case TextYear(s) => s
  }

  /** `ArticleDate`: the year text when it has at least four characters and
      all are digits, otherwise "". */
  function ArticleDate(y: Year): (d: string)
    ensures d == "" || (d == YearText(y) && |d| >= 4 && AllDigits(d))
    ensures d == "" <==> !(|YearText(y)| >= 4 && AllDigits(YearText(y)))
  {
    var t := YearText(y);
    if |t| >= 4 && AllDigits(t) then t else ""
  }

  /** An integer year is kept exactly when it is at least 1000, and then as
      its decimal text. */
  lemma IntYearDate(n: int)
    ensures ArticleDate(IntYear(n)) != "" <==> n >= 1000
    ensures n >= 1000 ==> ArticleDate(IntYear(n)) == NatToString(n)
  {
    if n >= 0 {
      NatToStringLength(n, 3);
    }
  }

  function MakeRecord(e: Entry): Record {
    var p := e.paper;
    Record(DetailPrefix + ArticleId(p), e.query, Strip(p.title.GetOr("")),
           Strip(p.summary.GetOr("")), ArticleDate(p.publishYear), p)
  }

  /** The acceptance test: id, Note, abstract and date all non-empty. */
  predicate Complete(e: Entry) {
    var r := MakeRecord(e);
    ArticleId(e.paper) != "" && r.note != "" && r.abstractText != "" && r.articleDate != ""
  }

  /** Note is never empty, so it never decides acceptance on its own. */
  lemma NoteNeverDecides(e: Entry)
    ensures StartsWith(MakeRecord(e).note, DetailPrefix)
    ensures Complete(e) <==> ArticleId(e.paper) != "" && MakeRecord(e).abstractText != ""
                             && ArticleDate(e.paper.publishYear) != ""
  {
  }

  /** The article id a row carries, read back from its Note link. */
  function RecordId(r: Record): string {
    if StartsWith(r.note, DetailPrefix) then r.note[|DetailPrefix|..] else r.note
  }

  /** What the loop body looks at in one paper: its key, whether it passes
      the acceptance test, and the row it would become. */
  datatype Candidate = Candidate(id: string, complete: bool, record: Record)

  function View(e: Entry): Candidate {
    Candidate(ArticleId(e.paper), Complete(e), MakeRecord(e))
  }

  function Views(stream: seq<Entry>): (cs: seq<Candidate>)
    ensures |cs| == |stream|
    ensures forall k :: 0 <= k < |stream| ==> cs[k] == View(stream[k])
  {
    seq(|stream|, k requires 0 <= k < |stream| => View(stream[k]))
  }

  /** A candidate's row carries its key, and an accepted one has a
      non-empty key, abstract and date. */
  predicate Consistent(c: Candidate) {
    RecordId(c.record) == c.id
    && (c.complete ==> c.id != "" && c.record.abstractText != "" && c.record.articleDate != "")
  }

  predicate AllConsistent(cs: seq<Candidate>) {
    forall k :: 0 <= k < |cs| ==> Consistent(cs[k])
  }

  lemma ViewsConsistent(stream: seq<Entry>)
    ensures AllConsistent(Views(stream))
  {
    forall k | 0 <= k < |stream|
      ensures Consistent(Views(stream)[k])
    {
      var e := stream[k];
      var note := DetailPrefix + ArticleId(e.paper);
      assert note[..|DetailPrefix|] == DetailPrefix && note[|DetailPrefix|..] == ArticleId(e.paper);
    }
  }

  /** The run's mutable state: `fetched_article_ids` and `all_results`. */
  datatype State = State(seen: set<string>, results: seq<Record>)

  /** The loop body on a viewed paper: skip a seen id; otherwise mark it
      seen (whether or not it is then accepted) and append the record when
      complete. */
  function Admit(st: State, c: Candidate): State {
    if c.id in st.seen then st
    else State(st.seen + {c.id}, if c.complete then st.results + [c.record] else st.results)
  }

  function AdmitAll(st: State, cs: seq<Candidate>): State
    decreases |cs|
  {
    if |cs| == 0 then st else AdmitAll(Admit(st, cs[0]), cs[1..])
  }

  /** One paper through the loop body. */
  function Step(st: State, e: Entry): State {
    Admit(st, View(e))
  }

  /** The loop body applied to a stream of papers in encounter order. */
  function Process(st: State, stream: seq<Entry>): State
    decreases |stream|
  {
    if |stream| == 0 then st else Process(Step(st, stream[0]), stream[1..])
  }

  lemma {:induction false} ProcessOnViews(st: State, stream: seq<Entry>)
    ensures Process(st, stream) == AdmitAll(st, Views(stream))
    decreases |stream|
  {
    if |stream| > 0 {
      assert Views(stream)[1..] == Views(stream[1..]);
      ProcessOnViews(Step(st, stream[0]), stream[1..]);
    }
  }

  // ---------------------------------------------------------------------
  // Reference definition of the accepted records
  // ---------------------------------------------------------------------

  /** Position `i` holds the first paper of the stream with its id. */
  predicate FirstOccurrence(cs: seq<Candidate>, i: nat)
    requires i < |cs|
  {
    forall j :: 0 <= j < i ==> cs[j].id != cs[i].id
  }

  function IdsOf(cs: seq<Candidate>): set<string> {
    set i | 0 <= i < |cs| :: cs[i].id
  }

  /** The records of the complete first occurrences, in stream order. */
  function Accepted(cs: seq<Candidate>): seq<Record>
    decreases |cs|
  {
    if |cs| == 0 then []
    else
      var n := |cs| - 1;
      Accepted(cs[..n]) + (if FirstOccurrence(cs, n) && cs[n].complete then [cs[n].record] else [])
  }

  lemma IdsOfSnoc(pre: seq<Candidate>, c: Candidate)
    ensures IdsOf(pre + [c]) == IdsOf(pre) + {c.id}
  {
    var s := pre + [c];
    forall x | x in IdsOf(s)
      ensures x in IdsOf(pre) + {c.id}
    {
      var i :| 0 <= i < |s| && s[i].id == x;
      if i < |pre| { assert s[i] == pre[i]; }
    }
    forall x | x in IdsOf(pre)
      ensures x in IdsOf(s)
    {
      var i :| 0 <= i < |pre| && pre[i].id == x;
      assert s[i] == pre[i];
    }
    assert s[|pre|] == c;
  }

  lemma StepMatchesReference(pre: seq<Candidate>, c: Candidate)
    ensures Admit(State(IdsOf(pre), Accepted(pre)), c) == State(IdsOf(pre + [c]), Accepted(pre + [c]))
  {
    var s := pre + [c];
    assert s[..|pre|] == pre;
    IdsOfSnoc(pre, c);
    assert FirstOccurrence(s, |pre|) <==> c.id !in IdsOf(pre) by {
      if c.id in IdsOf(pre) {
        var j :| 0 <= j < |pre| && pre[j].id == c.id;
        assert s[j] == pre[j];
      }
      if !FirstOccurrence(s, |pre|) {
        var j :| 0 <= j < |pre| && s[j].id == s[|pre|].id;
        assert s[j] == pre[j];
      }
    }
  }

  /** The loop computes the reference from any prefix onwards. */
  lemma {:induction false} AdmitFrom(s: seq<Candidate>, k: nat)
    requires k <= |s|
    ensures AdmitAll(State(IdsOf(s[..k]), Accepted(s[..k])), s[k..]) == State(IdsOf(s), Accepted(s))
    decreases |s| - k
  {
    if k == |s| {
      assert s[..k] == s;
    } else {
      assert s[k..][0] == s[k] && s[k..][1..] == s[k + 1..];
      StepMatchesReference(s[..k], s[k]);
      assert s[..k] + [s[k]] == s[..k + 1];
      AdmitFrom(s, k + 1);
    }
  }

  /** The loop over the whole stream marks every id seen and keeps exactly
      the complete first occurrences, in encounter order. */
  lemma ProcessIsReference(stream: seq<Entry>)
    ensures Process(State({}, []), stream) == State(IdsOf(Views(stream)), Accepted(Views(stream)))
  {
    var cs := Views(stream);
    ProcessOnViews(State({}, []), stream);
    assert IdsOf(cs[..0]) == {};
    AdmitFrom(cs, 0);
    assert cs[0..] == cs;
  }

  /** Accepted records are complete, carry ids met in the stream, and no two
      of them share an article id. */
  lemma {:induction false} AcceptedFacts(cs: seq<Candidate>)
    requires AllConsistent(cs)
    ensures forall r :: r in Accepted(cs) ==>
              RecordId(r) in IdsOf(cs) && RecordId(r) != ""
              && r.abstractText != "" && r.articleDate != ""
    ensures forall a, b :: 0 <= a < b < |Accepted(cs)| ==>
              RecordId(Accepted(cs)[a]) != RecordId(Accepted(cs)[b])
    decreases |cs|
  {
    if |cs| > 0 {
      var n := |cs| - 1;
      var pre := cs[..n];
      assert AllConsistent(pre) by {
        assert forall k :: 0 <= k < n ==> pre[k] == cs[k];
      }
      AcceptedFacts(pre);
      IdsOfSnoc(pre, cs[n]);
      assert pre + [cs[n]] == cs;
      assert Consistent(cs[n]);
      if FirstOccurrence(cs, n) && cs[n].complete {
        var last := cs[n].record;
        forall j | 0 <= j < |pre|
          ensures pre[j].id != cs[n].id
        {
          assert pre[j] == cs[j];
        }
        assert Accepted(cs) == Accepted(pre) + [last];
        assert RecordId(last) !in IdsOf(pre);
        DistinctAfterFresh(Accepted(pre), IdsOf(pre), last);
      } else {
        assert Accepted(cs) == Accepted(pre);
      }
    }
  }

  /** Appending a record whose id is outside a set holding every earlier
      record's id keeps the ids distinct. */
  lemma DistinctAfterFresh(acc: seq<Record>, ids: set<string>, last: Record)
    requires forall r :: r in acc ==> RecordId(r) in ids
    requires forall a, b :: 0 <= a < b < |acc| ==> RecordId(acc[a]) != RecordId(acc[b])
    requires RecordId(last) !in ids
    ensures var more := acc + [last];
            forall a, b :: 0 <= a < b < |more| ==> RecordId(more[a]) != RecordId(more[b])
  {
    var more := acc + [last];
    forall a, b | 0 <= a < b < |more|
      ensures RecordId(more[a]) != RecordId(more[b])
    {
      assert more[a] == acc[a];
      if b == |acc| {
        assert acc[a] in acc;
      } else {
        assert more[b] == acc[b];
      }
    }
  }

  /** An id kept out of every earlier record, and not carried by the last
      candidate if that one is accepted, is kept out of every record. */
  lemma AcceptedAvoids(cs: seq<Candidate>, x: string)
    requires |cs| > 0 && Consistent(cs[|cs| - 1])
    requires forall r :: r in Accepted(cs[..|cs| - 1]) ==> RecordId(r) != x
    requires FirstOccurrence(cs, |cs| - 1) && cs[|cs| - 1].complete ==> cs[|cs| - 1].id != x
    ensures forall r :: r in Accepted(cs) ==> RecordId(r) != x
  {
  }

  /** An id is spent on its first paper: when that paper is incomplete, no
      record with that id is kept, even from a later complete copy under
      the same or another query. */
  lemma {:induction false} FirstCopyDecidesReference(cs: seq<Candidate>, i: nat)
    requires AllConsistent(cs)
    requires i < |cs| && FirstOccurrence(cs, i) && !cs[i].complete
    ensures forall r :: r in Accepted(cs) ==> RecordId(r) != cs[i].id
    decreases |cs|
  {
    var n := |cs| - 1;
    var pre := cs[..n];
    assert AllConsistent(pre) by {
      assert forall k :: 0 <= k < n ==> pre[k] == cs[k];
    }
    if i < n {
      assert FirstOccurrence(pre, i) by {
        assert forall j :: 0 <= j <= i ==> pre[j] == cs[j];
      }
      assert pre[i] == cs[i];
      FirstCopyDecidesReference(pre, i);
    } else {
      AcceptedFacts(pre);
      forall j | 0 <= j < |pre|
        ensures pre[j].id != cs[i].id
      {
        assert pre[j] == cs[j];
      }
      assert cs[i].id !in IdsOf(pre);
    }
    AcceptedAvoids(cs, cs[i].id);
  }

  /** The same, for the loop itself: once the first paper with an id is
      incomplete, no kept row carries that id. */
  lemma FirstCopyDecides(stream: seq<Entry>, i: nat)
    requires i < |stream| && FirstOccurrence(Views(stream), i) && !Complete(stream[i])
    ensures forall r :: r in Process(State({}, []), stream).results ==>
              RecordId(r) != ArticleId(stream[i].paper)
  {
    ProcessIsReference(stream);
    ViewsConsistent(stream);
    FirstCopyDecidesReference(Views(stream), i);
  }

  // ---------------------------------------------------------------------
  // main(): all queries, all pages
  // ---------------------------------------------------------------------

  function Tag(query: string, papers: seq<Paper>): (es: seq<Entry>)
    ensures |es| == |papers|
    ensures forall k :: 0 <= k < |papers| ==> es[k] == Entry(query, papers[k])
  {
    if |papers| == 0 then [] else [Entry(query, papers[0])] + Tag(query, papers[1..])
  }

  /** The papers of the requested pages, in page order. The page that ends
      the traversal by being empty contributes nothing. */
  function PapersOf(query: string, replies: (string, nat) -> Reply, pages: seq<nat>): seq<Entry>
  {
    if |pages| == 0 then []
    else Tag(query, GetSearch(replies(query, pages[0])).data) + PapersOf(query, replies, pages[1..])
  }

  /** Every paper met while running all queries in order. */
  function Stream(queries: seq<string>, replies: (string, nat) -> Reply, fuel: nat): seq<Entry>
  {
    if |queries| == 0 then []
    else PapersOf(queries[0], replies, PagesRequested(queries[0], replies, 1, fuel))
         + Stream(queries[1..], replies, fuel)
  }

  /** `main` up to the CSV export: the records collected over all queries. */
  function Harvest(core: string, additional: seq<string>, replies: (string, nat) -> Reply, fuel: nat)
    : (results: seq<Record>)
    ensures results == Accepted(Views(Stream(GenerateSearchQueries(core, additional), replies, fuel)))
    ensures forall a, b :: 0 <= a < b < |results| ==> RecordId(results[a]) != RecordId(results[b])
    ensures forall r :: r in results ==> RecordId(r) != "" && r.abstractText != "" && r.articleDate != ""
  {
    var stream := Stream(GenerateSearchQueries(core, additional), replies, fuel);
    ProcessIsReference(stream);
    ViewsConsistent(stream);
    AcceptedFacts(Views(stream));
    Process(State({}, []), stream).results
  }
}

=== FILE: pdflink.dfy ===
/** The rules of the PubMed PDF-link finder (pubmed2_pdflink.py): the shape
    of the result of `check_url`, which link of a parsed page is taken as
    the PDF link, how each spreadsheet row's `PDF_Avail`, `Checked_URL` and
    `PDF_Link` cells are filled, and when `download_pdf` writes a file.

    `requests` and BeautifulSoup are not modelled: a reply is an
    observation, and the parser is a function `parse` from HTML text to the
    elements the rules look at. */
module PdfLink {
  import opened Wrappers
  import opened Text
  import opened Files
  import opened Seqs

  const PdfType: string := "application/pdf"
  const PdfMark: string := ".pdf"
  const HasPdf: string := "Has PDF"
  const NoPdf: string := "No PDF"
  const Nan: string := "nan"
  const UnknownHeader: string := "Unknown"

  // ---------------------------------------------------------------------
  // check_url
  // ---------------------------------------------------------------------

  /** What `requests.get` gives back: no response at all (connection error,
      timeout, malformed URL), or a response with its status, the two
      headers read, and its text. */
  datatype Reply =
    | NoResponse
    | Reply(status: int, contentType: Option<string>, contentLength: Option<string>, text: string)

  /** `resp.raise_for_status()` raises for client and server errors. */
  predicate RaisesForStatus(status: int) {
    400 <= status < 600
  }

  /** The dictionary `check_url` returns: the `'err'` form carries the
      status of the failed response, if there was one, and empty HTML. */
  datatype Checked =
    | Err(status: Option<int>)
    | Ok(code: int, kind: string, size: string, html: string)
  {
    /** `result['html']`, present in both forms. */
    function Html(): string {
      match this
      case Err(_) => ""
      case Ok(_, _, _, h) => h
    }
  }

  /** `check_url(url)` given the reply to its request. */
  function CheckUrl(reply: Reply): (r: Checked)
    ensures r.Err? <==> reply.NoResponse? || RaisesForStatus(reply.status)
    ensures r.Err? ==> r.status == (if reply.Reply? then Some(reply.status) else None) && r.Html() == ""
    ensures r.Ok? ==> r.html == reply.text && r.code == reply.status
    ensures r.Ok? ==> r.kind == reply.contentType.GetOr(UnknownHeader)
                      && r.size == reply.contentLength.GetOr(UnknownHeader)
  {
    match reply
    case NoResponse => Err(None)
    case Reply(status, ct, cl, text) =>
      if RaisesForStatus(status) then Err(Some(status))
      else Ok(status, ct.GetOr(UnknownHeader), cl.GetOr(UnknownHeader), text)
  }

  // ---------------------------------------------------------------------
  // Choosing the PDF link
  // ---------------------------------------------------------------------

  /** An `<embed>` element: its `type` and `src` attributes. */
  datatype Embed = Embed(kind: Option<string>, src: Option<string>)

  /** An `<a>` element: its `href` attribute. */
  datatype Anchor = Anchor(href: Option<string>)

  /** The parsed page: its embeds and anchors in document order. */
  datatype Doc = Doc(embeds: seq<Embed>, anchors: seq<Anchor>)

  /** `soup.find('embed', {'type': 'application/pdf'})` matches this. */
  predicate IsPdfEmbed(e: Embed) {
    e.kind == Some(PdfType)
  }

  /** An `<a href>` whose lower-cased target mentions `.pdf`. */
  predicate IsPdfAnchor(a: Anchor) {
    a.href.Some? && Contains(Lower(a.href.value), PdfMark)
  }

  /** The first PDF embed has a non-empty `src`. */
  predicate EmbedDecides(d: Doc) {
    var k := FirstWhere(d.embeds, IsPdfEmbed);
    k < |d.embeds| && d.embeds[k].src.GetOr("") != ""
  }

  /** The link chosen from a parsed page, if any. */
  function FindPdfLink(d: Doc): (link: Option<string>)
    ensures link.Some? ==> link.value != ""
    ensures EmbedDecides(d) ==> link == d.embeds[FirstWhere(d.embeds, IsPdfEmbed)].src
    ensures !EmbedDecides(d) ==>
              (link.Some? <==> exists j :: 0 <= j < |d.anchors| && IsPdfAnchor(d.anchors[j]))
    ensures !EmbedDecides(d) && link.Some? ==>
              var j := FirstWhere(d.anchors, IsPdfAnchor);
              j < |d.anchors| && link == d.anchors[j].href && Contains(Lower(link.value), PdfMark)
  {
    var k := FirstWhere(d.embeds, IsPdfEmbed);
    if k < |d.embeds| && d.embeds[k].src.GetOr("") != "" then d.embeds[k].src
    else
      var j := FirstWhere(d.anchors, IsPdfAnchor);
      if j < |d.anchors| then
        NonEmptyWhenContains(Lower(d.anchors[j].href.value), PdfMark);
        d.anchors[j].href
      else None
  }

  /** A text containing a non-empty pattern is not empty. */
  lemma NonEmptyWhenContains(s: string, p: string)
    requires p != "" && Contains(s, p)
    ensures s != ""
  {
  }

  /** Only the first PDF embed is looked at: when it has no `src` (or an
      empty one), the embeds after it are ignored, whatever they hold, and
      the anchors alone decide. */
  lemma OnlyFirstEmbedInspected(d: Doc, later: seq<Embed>)
    requires FirstWhere(d.embeds, IsPdfEmbed) < |d.embeds|
    requires d.embeds[FirstWhere(d.embeds, IsPdfEmbed)].src.GetOr("") == ""
    ensures FindPdfLink(Doc(d.embeds + later, d.anchors)) == FindPdfLink(Doc([], d.anchors))
  {
    FirstWhereAppend(d.embeds, later, IsPdfEmbed);
  }

  // ---------------------------------------------------------------------
  // download_pdf
  // ---------------------------------------------------------------------

  /** What fetching the PDF link gives back. `body` stands for the bytes the
      stream delivered: a stream broken mid-body is caught inside
      `download_pdf` and leaves a partial file. An `OSError` from opening or
      writing the file, and the missing request timeout, are not modelled. */
  datatype Fetch = FetchFailed | Fetched(status: int, contentType: Option<string>, body: Bytes)

  /** `download_pdf(pdf_url, save_path)`: the bytes written to `save_path`,
      or `None` when the function returns without writing. */
  function DownloadPdf(url: string, fetch: Fetch): (written: Option<Bytes>)
    ensures written.Some? <==> url != "" && fetch.Fetched? && !RaisesForStatus(fetch.status)
                               && Contains(fetch.contentType.GetOr(""), PdfType)
    ensures written.Some? ==> written.value == fetch.body
  {
    if url == "" then None
    else match fetch
      case FetchFailed => None
      case Fetched(status, ct, body) =>
        if RaisesForStatus(status) then None
        else if !Contains(ct.GetOr(""), PdfType) then None
        else Some(body)
  }

  /** `os.path.join(download_dir, f"{pmid}.pdf")`. */
  function SavePath(dir: string, pmid: string): (path: string)
    ensures EndsWith(path, pmid + PdfMark)
  {
    PathJoin(dir, pmid + PdfMark)
  }

  // ---------------------------------------------------------------------
  // process_doi_data
  // ---------------------------------------------------------------------

  /** A spreadsheet row: `str()` of its DOI and PMID cells (a missing cell
      reads "nan"). */
  datatype Row = Row(doi: string, pmid: string)

  /** What the requests for one row observed: the reply to the checked URL
      and the fetch of the PDF link. */
  datatype RowObs = RowObs(reply: Reply, fetch: Fetch)

  /** The `PDF_Avail` verdict of a row. */
  datatype Avail = Unset | HasLink | NoLink {
    /** The text written into the cell. */
    function Cell(): string {
      match this
      case Unset => ""
      case HasLink => HasPdf
      case NoLink => NoPdf
    }
  }

  /** The three texts the cell can hold are distinct, so the cell shows
      which of the three verdicts was reached. */
  lemma CellsDistinct(a: Avail, b: Avail)
    ensures a.Cell() == b.Cell() <==> a == b
  {
    assert HasPdf[0] != NoPdf[0];
  }

  /** The three cells the loop fills in. */
  datatype Cells = Cells(avail: Avail, checkedUrl: string, pdfLink: string)

  /** The cells of a row and the file written for it (path and bytes). */
  datatype RowResult = RowResult(cells: Cells, saved: Option<(string, Bytes)>)

  /** The row is skipped: its stripped DOI is empty or "nan" in any case. */
  predicate SkippedDoi(doi: string) {
    Strip(doi) == "" || Lower(Strip(doi)) == Nan
  }

  /** The link of the checked page; a result without HTML is not parsed. */
  function PageLink(result: Checked, parse: string -> Doc): (link: Option<string>)
    ensures result.Html() == "" ==> link.None?
    ensures link.Some? ==> link.value != ""
  {
    if result.Html() != "" then FindPdfLink(parse(result.Html())) else None
  }

  /** The verdict of a checked row: a request error is "No PDF", a page
      with a link is "Has PDF", a page without one is "No PDF", and a
      successful reply with empty HTML leaves the cell empty. */
  function Judge(result: Checked, link: Option<string>): (a: Avail)
    ensures result.Err? ==> a == NoLink
    ensures a == Unset <==> result.Ok? && result.html == ""
    ensures a == HasLink <==> result.Ok? && result.html != "" && link.Some?
  {
    if result.Err? then NoLink
    else if result.html != "" then (if link.Some? then HasLink else NoLink)
    else Unset
  }

  /** One row of `process_doi_data`. `urlFor` builds the checked URL from
      the stripped DOI. */
  function ProcessRow(row: Row, dir: string, urlFor: string -> string, parse: string -> Doc,
                      obs: RowObs): (r: RowResult)
    ensures SkippedDoi(row.doi) ==> r == RowResult(Cells(Unset, "", ""), None)
    ensures !SkippedDoi(row.doi) ==>
              var result := CheckUrl(obs.reply);
              r.cells.checkedUrl == urlFor(Strip(row.doi))
              && r.cells.avail == Judge(result, PageLink(result, parse))
              && (r.cells.avail == HasLink ==> Some(r.cells.pdfLink) == PageLink(result, parse))
    ensures r.cells.pdfLink != "" <==> r.cells.avail == HasLink
    ensures r.saved.Some? ==> r.cells.avail == HasLink && r.saved.value.0 == SavePath(dir, row.pmid)
                              && DownloadPdf(r.cells.pdfLink, obs.fetch) == Some(r.saved.value.1)
    ensures r.cells.avail == HasLink && DownloadPdf(r.cells.pdfLink, obs.fetch).Some? ==>
              r.saved == Some((SavePath(dir, row.pmid), DownloadPdf(r.cells.pdfLink, obs.fetch).value))
  {
    var doi := Strip(row.doi);
    if doi == "" || Lower(doi) == Nan then RowResult(Cells(Unset, "", ""), None)
    else
      var url := urlFor(doi);
      var result := CheckUrl(obs.reply);
      var found := PageLink(result, parse);
      var avail := Judge(result, found);
      if avail == HasLink then
        var w := DownloadPdf(found.value, obs.fetch);
        RowResult(Cells(HasLink, url, found.value),
                  if w.Some? then Some((SavePath(dir, row.pmid), w.value)) else None)
      else RowResult(Cells(avail, url, ""), None)
  }

  /** A file is written only for a row marked "Has PDF", only when its PDF
      link answered with a PDF content type, and always under the row's
      PMID. */
  lemma WriteNeedsPdfReply(row: Row, dir: string, urlFor: string -> string, parse: string -> Doc, obs: RowObs)
    requires ProcessRow(row, dir, urlFor, parse, obs).saved.Some?
    ensures var r := ProcessRow(row, dir, urlFor, parse, obs);
            r.cells.avail.Cell() == HasPdf && obs.fetch.Fetched?
            && Contains(obs.fetch.contentType.GetOr(""), PdfType)
            && EndsWith(r.saved.value.0, row.pmid + PdfMark)
  {
  }

  /** `process_doi_data`: the rows in order, the cells of each and the
      files written, each tagged with its row. Every row whose download
      succeeded is written, once, in row order. */
  method ProcessDoiData(rows: seq<Row>, obs: seq<RowObs>, dir: string, urlFor: string -> string,
                        parse: string -> Doc) returns (cells: seq<Cells>, writes: seq<(nat, string, Bytes)>)
    requires |obs| == |rows|
    ensures |cells| == |rows|
    ensures forall i :: 0 <= i < |rows| ==> cells[i] == ProcessRow(rows[i], dir, urlFor, parse, obs[i]).cells
    ensures forall w :: w in writes ==>
              w.0 < |rows| && ProcessRow(rows[w.0], dir, urlFor, parse, obs[w.0]).saved == Some((w.1, w.2))
    ensures forall i :: 0 <= i < |rows| && ProcessRow(rows[i], dir, urlFor, parse, obs[i]).saved.Some? ==>
              var s := ProcessRow(rows[i], dir, urlFor, parse, obs[i]).saved.value;
              (i, s.0, s.1) in writes
    ensures forall a, b :: 0 <= a < b < |writes| ==> writes[a].0 < writes[b].0
  {
    var results := seq(|rows|, i requires 0 <= i < |rows| => ProcessRow(rows[i], dir, urlFor, parse, obs[i]));
    cells, writes := Gather(results);
  }

  /** The loop of `process_doi_data` over the rows' results: the cells in
      row order, and the writes of the rows that saved a file. */
  method Gather(results: seq<RowResult>) returns (cells: seq<Cells>, writes: seq<(nat, string, Bytes)>)
    ensures |cells| == |results|
    ensures forall i :: 0 <= i < |results| ==> cells[i] == results[i].cells
    ensures forall w :: w in writes ==> w.0 < |results| && results[w.0].saved == Some((w.1, w.2))
    ensures forall i :: 0 <= i < |results| && results[i].saved.Some? ==>
              (i, results[i].saved.value.0, results[i].saved.value.1) in writes
    ensures forall a, b :: 0 <= a < b < |writes| ==> writes[a].0 < writes[b].0
  {
    cells := [];
    writes := [];
    var i := 0;
    while i < |results|
      invariant 0 <= i <= |results|
      invariant |cells| == i
      invariant forall k :: 0 <= k < i ==> cells[k] == results[k].cells
      invariant forall w :: w in writes ==> w.0 < i && results[w.0].saved == Some((w.1, w.2))
      invariant forall k :: 0 <= k < i && results[k].saved.Some? ==>
                  (k, results[k].saved.value.0, results[k].saved.value.1) in writes
      invariant forall a, b :: 0 <= a < b < |writes| ==> writes[a].0 < writes[b].0
    {
      cells := cells + [results[i].cells];
      if results[i].saved.Some? {
        writes := writes + [(i, results[i].saved.value.0, results[i].saved.value.1)];
      }
      i := i + 1;
    }
  }
}

=== FILE: pubmed.dfy ===
/** The identity and duplicate-file rules of the PubMed downloader
    (pubmed.py): how a DOI becomes a PMID and a file name, when a finished
    download may be moved into the target directory, how the attempt loop
    counts its retries, and which DOIs are processed at all.

    The browser session of each attempt is not modelled: each attempt is an
    observation (an exception, no PDF in the temporary directory, or the
    newest PDF found there). PyPDF2 is the `parses` flag of that file and
    MD5 is an uninterpreted function `md5` passed in. */
module Pubmed {
  import opened Wrappers
  import opened Text
  import opened Files

  const MaxRetries: nat := 3
  const UnknownPmid: string := "Unknown_PMID"
  const PmidPrefix: string := "PMID_"
  const PdfSuffix: string := ".pdf"

  // ---------------------------------------------------------------------
  // DOI -> PMID -> file name
  // ---------------------------------------------------------------------

  /** One spreadsheet row, both cells already passed through `astype(str)`. */
  datatype Row = Row(doi: string, pmid: string)

  /** The DOIs of the rows. */
  function DoiSet(rows: seq<Row>): set<string>
    decreases |rows|
  {
    if |rows| == 0 then {} else DoiSet(rows[..|rows| - 1]) + {rows[|rows| - 1].doi}
  }

  /** `dict(zip(df["DOI"].astype(str), df["PMID"].astype(str)))`: the keys
      are the sheet's DOIs, and a DOI that occurs on several rows maps to
      the PMID of the last of them. */
  function PmidMap(rows: seq<Row>): (m: map<string, string>)
    ensures m.Keys == DoiSet(rows)
    ensures forall i :: 0 <= i < |rows| && (forall j :: i < j < |rows| ==> rows[j].doi != rows[i].doi)
              ==> rows[i].doi in m && m[rows[i].doi] == rows[i].pmid
    decreases |rows|
  {
    if |rows| == 0 then map[]
    else
      var n := |rows| - 1;
      var pre := rows[..n];
      var m := PmidMap(pre);
      var m' := m[rows[n].doi := rows[n].pmid];
      forall i | 0 <= i < n && (forall j :: i < j < |rows| ==> rows[j].doi != rows[i].doi)
        ensures rows[i].doi in m' && m'[rows[i].doi] == rows[i].pmid
      {
        assert pre[i] == rows[i];
        assert forall j :: i < j < |pre| ==> pre[j] == rows[j];
      }
      m'
  }

  /** The PMID of `download_and_rename_pdf`: the mapped value unless the DOI
      is not a key or its value is blank, then "Unknown_PMID". The mapped
      value is used as is, without stripping. */
  function DerivePmid(m: map<string, string>, doi: string): (pmid: string)
    ensures Strip(pmid) != ""
    ensures doi in m && Strip(m[doi]) != "" ==> pmid == m[doi]
    ensures !(doi in m && Strip(m[doi]) != "") ==> pmid == UnknownPmid
  {
    if doi in m && Strip(m[doi]) != "" then m[doi]
    else
      assert !IsSpace(UnknownPmid[0]);
      UnknownPmid
  }

  /** The name a download is stored under. */
  function TargetName(pmid: string): string {
    PmidPrefix + pmid + PdfSuffix
  }

  /** Names `check_duplicate_in_target` compares against: ".pdf" in any case
      (first filter), then "PMID_" prefix and lower-case ".pdf" suffix. */
  predicate IsTargetPdf(name: string) {
    EndsWith(Lower(name), PdfSuffix) && StartsWith(name, PmidPrefix) && EndsWith(name, PdfSuffix)
  }

  /** Every stored name is one the duplicate check looks at. */
  lemma TargetNameIsTargetPdf(pmid: string)
    ensures IsTargetPdf(TargetName(pmid))
    ensures StartsWith(TargetName(pmid), PmidPrefix) && EndsWith(TargetName(pmid), PdfSuffix)
  {
    var n := TargetName(pmid);
    assert n[..|PmidPrefix|] == PmidPrefix;
    assert n[|n| - |PdfSuffix|..] == PdfSuffix;
    LowerKeepsLowerSuffix(n, PdfSuffix);
  }

  // ---------------------------------------------------------------------
  // check_duplicate_in_target
  // ---------------------------------------------------------------------

  /** Some target PDF of the listing has the candidate's hash. */
  predicate HasTargetDuplicate(dir: Dir, candidate: Bytes, md5: Bytes -> string)
    decreases |dir|
  {
    |dir| > 0
    && ((IsTargetPdf(dir[0].name) && md5(dir[0].content) == md5(candidate))
        || HasTargetDuplicate(dir[1..], candidate, md5))
  }

  /** `check_duplicate_in_target`: scans the listing in order and reports a
      duplicate at the first target PDF whose hash equals the candidate's. */
  method CheckDuplicateInTarget(candidate: Bytes, dir: Dir, md5: Bytes -> string) returns (dup: bool)
    ensures dup <==> HasTargetDuplicate(dir, candidate, md5)
  {
    var fileHash := md5(candidate);
    var i := 0;
    while i < |dir|
      invariant 0 <= i <= |dir|
      invariant HasTargetDuplicate(dir, candidate, md5) <==> HasTargetDuplicate(dir[i..], candidate, md5)
    {
      var name := dir[i].name;
      assert dir[i..][1..] == dir[i + 1..];
      if EndsWith(Lower(name), PdfSuffix) && StartsWith(name, PmidPrefix) && EndsWith(name, PdfSuffix) {
        if md5(dir[i].content) == fileHash {
          return true;
        }
      }
      i := i + 1;
    }
    return false;
  }

  // ---------------------------------------------------------------------
  // One attempt of download_and_rename_pdf
  // ---------------------------------------------------------------------

  /** The newest PDF of the temporary directory after the wait: its size,
      whether PyPDF2 opened it, and its bytes. */
  datatype Download = Download(size: int, parses: bool, content: Bytes)

  /** What one attempt observed. */
  datatype Attempt =
    | Crashed                  // any exception: browser, navigation, no selector matched
    | NoPdf                    // no ".pdf" file in the temporary directory
    | Found(file: Download)

  /** How an attempt ends. */
  datatype Decision =
    | Moved                    // renamed into the target directory: success
    | DuplicateOfExisting      // target name taken, same content present
    | NameConflict             // target name taken, content differs
    | DuplicateElsewhere       // target name free, same content under another name
    | InvalidFile              // empty or not parseable
    | NoPdfRetry               // counts one retry
    | CrashRetry               // counts one retry

  /** The branch structure of one attempt. */
  function Decide(att: Attempt, name: string, dir: Dir, md5: Bytes -> string): (d: Decision)
    ensures d == Moved <==>
              att.Found? && att.file.size > 0 && att.file.parses
              && !NameExists(dir, name) && !HasTargetDuplicate(dir, att.file.content, md5)
    ensures d == NoPdfRetry <==> att.NoPdf?
    ensures d == CrashRetry <==> att.Crashed?
    ensures d == InvalidFile <==> att.Found? && !(att.file.size > 0 && att.file.parses)
  {
    match att
    case Crashed => CrashRetry
    case NoPdf => NoPdfRetry
    case Found(f) =>
      if !(f.size > 0 && f.parses) then InvalidFile
      else if NameExists(dir, name) then
        (if HasTargetDuplicate(dir, f.content, md5) then DuplicateOfExisting else NameConflict)
      else if !HasTargetDuplicate(dir, f.content, md5) then Moved
      else DuplicateElsewhere
  }

  /** Only the two `retries += 1` branches spend the retry budget. */
  predicate ConsumesRetry(d: Decision) {
    d == NoPdfRetry || d == CrashRetry
  }

  /** A move never overwrites: the target name was free, and the directory
      gains exactly that one entry. */
  function Apply(d: Decision, att: Attempt, name: string, dir: Dir): (dir': Dir)
    requires d == Moved ==> att.Found?
    ensures d == Moved ==> |dir'| == |dir| + 1 && dir'[..|dir|] == dir
                           && dir'[|dir|] == DirEntry(name, att.file.content)
    ensures d != Moved ==> dir' == dir
  {
    if d == Moved then dir + [DirEntry(name, att.file.content)] else dir
  }

  /** A move keeps the target directory a real directory: its names stay
      unique, nothing already there changes, and the target name exists
      afterwards exactly when the attempt moved a file onto it. */
  lemma MoveKeepsNamesUnique(att: Attempt, name: string, dir: Dir, md5: Bytes -> string)
    requires UniqueNames(dir)
    ensures var d := Decide(att, name, dir, md5);
            var dir' := Apply(d, att, name, dir);
            UniqueNames(dir') && dir'[..|dir|] == dir
            && (d == Moved <==> !NameExists(dir, name) && NameExists(dir', name))
  {
    var d := Decide(att, name, dir, md5);
    if d == Moved {
      AddFreshKeepsUnique(dir, DirEntry(name, att.file.content));
    }
  }

  // ---------------------------------------------------------------------
  // The attempt loop: `while not success and retries < MAX_RETRIES`
  // ---------------------------------------------------------------------

  /** Outcome of the attempt loop: `success`, the final `retries`, how many
      attempts ran, and the target directory afterwards. */
  datatype Run = Run(success: bool, retries: nat, attempts: nat, dir: Dir)

  /** Number of retry-consuming outcomes among the attempts. */
  function Spent(obs: seq<Attempt>, name: string, dir: Dir, md5: Bytes -> string): nat
  {
    if |obs| == 0 then 0
    else (if ConsumesRetry(Decide(obs[0], name, dir, md5)) then 1 else 0) + Spent(obs[1..], name, dir, md5)
  }

  /** The loop as written. `obs` are the observations of successive
      attempts; when they run out the model stops (fuel). Duplicate, name
      conflict and invalid file re-enter the loop without spending a
      retry. */
  function RetryLoop(obs: seq<Attempt>, name: string, dir: Dir, md5: Bytes -> string, retries: nat)
    : (run: Run)
    requires retries <= MaxRetries
    ensures retries <= run.retries <= MaxRetries
    ensures run.attempts <= |obs|
    ensures run.retries == retries + Spent(obs[..run.attempts], name, dir, md5)
    ensures run.attempts < |obs| ==> run.success || run.retries == MaxRetries
    ensures forall k :: 0 <= k < run.attempts - 1 ==> Decide(obs[k], name, dir, md5) != Moved
    ensures run.success <==> run.attempts > 0 && Decide(obs[run.attempts - 1], name, dir, md5) == Moved
    ensures run.success ==> !NameExists(dir, name)
                            && run.dir == dir + [DirEntry(name, obs[run.attempts - 1].file.content)]
    ensures !run.success ==> run.dir == dir
    decreases |obs|
  {
    if retries >= MaxRetries || |obs| == 0 then
      Run(false, retries, 0, dir)
    else
      var d := Decide(obs[0], name, dir, md5);
      if d == Moved then
        assert obs[..1] == [obs[0]];
        Run(true, retries, 1, Apply(d, obs[0], name, dir))
      else
        var r := RetryLoop(obs[1..], name, dir, md5, if ConsumesRetry(d) then retries + 1 else retries);
        assert obs[..r.attempts + 1] == [obs[0]] + obs[1..][..r.attempts];
        Run(r.success, r.retries, r.attempts + 1, r.dir)
  }

  /** No attempt of the loop as written starts once the budget is spent:
      before each attempt, `retries` is still below `MaxRetries`. */
  lemma {:induction false} AttemptsStartWithinBudget(obs: seq<Attempt>, name: string, dir: Dir,
                                                     md5: Bytes -> string, retries: nat)
    requires retries <= MaxRetries
    ensures var run := RetryLoop(obs, name, dir, md5, retries);
            forall k :: 0 <= k < run.attempts ==> retries + Spent(obs[..k], name, dir, md5) < MaxRetries
    decreases |obs|
  {
    if retries < MaxRetries && |obs| > 0 {
      var d := Decide(obs[0], name, dir, md5);
      assert obs[..0] == [];
      if d != Moved {
        var retries' := if ConsumesRetry(d) then retries + 1 else retries;
        var r := RetryLoop(obs[1..], name, dir, md5, retries');
        AttemptsStartWithinBudget(obs[1..], name, dir, md5, retries');
        forall k | 1 <= k < r.attempts + 1
          ensures retries + Spent(obs[..k], name, dir, md5) < MaxRetries
        {
          assert obs[..k][1..] == obs[1..][..k - 1];
        }
      }
    }
  }

  /** As written, an attempt that meets an existing target name never
      spends a retry: however many such attempts the browser produces, the
      loop keeps going with `retries` at 0 and never reaches its budget. */
  lemma {:induction false} ConflictNeverSpendsBudget(n: nat, f: Download, name: string, dir: Dir,
                                                     md5: Bytes -> string)
    requires f.size > 0 && f.parses && NameExists(dir, name)
    ensures RetryLoop(seq(n, _ => Found(f)), name, dir, md5, 0) == Run(false, 0, n, dir)
    decreases n
  {
    var obs := seq(n, _ => Found(f));
    if n > 0 {
      assert obs[1..] == seq(n - 1, _ => Found(f));
      ConflictNeverSpendsBudget(n - 1, f, name, dir, md5);
    }
  }

  /** The loop with every unsuccessful attempt spending one retry, so at most
      `MaxRetries` attempts run, as the final "Failed after MAX_RETRIES
      attempts" message says. */
  function BoundedRetryLoop(obs: seq<Attempt>, name: string, dir: Dir, md5: Bytes -> string,
                            retries: nat): (run: Run)
    requires retries <= MaxRetries
    ensures retries <= run.retries <= MaxRetries
    ensures run.attempts <= |obs| && run.attempts <= MaxRetries - retries
    ensures run.retries == retries + run.attempts - (if run.success then 1 else 0)
    ensures run.attempts < |obs| ==> run.success || run.retries == MaxRetries
    ensures forall k :: 0 <= k < run.attempts - 1 ==> Decide(obs[k], name, dir, md5) != Moved
    ensures run.success <==> run.attempts > 0 && Decide(obs[run.attempts - 1], name, dir, md5) == Moved
    ensures run.success ==> !NameExists(dir, name)
                            && run.dir == dir + [DirEntry(name, obs[run.attempts - 1].file.content)]
    ensures !run.success ==> run.dir == dir
    decreases |obs|
  {
    if retries >= MaxRetries || |obs| == 0 then
      Run(false, retries, 0, dir)
    else
      var d := Decide(obs[0], name, dir, md5);
      if d == Moved then
        Run(true, retries, 1, Apply(d, obs[0], name, dir))
      else
        var r := BoundedRetryLoop(obs[1..], name, dir, md5, retries + 1);
        Run(r.success, r.retries, r.attempts + 1, r.dir)
  }

  /** The correction ends the input of the finding: attempts that keep
      meeting an existing target name each spend a retry, so the loop gives
      up after `MaxRetries` of them with the directory unchanged. */
  lemma BoundedConflictGivesUp(n: nat, f: Download, name: string, dir: Dir, md5: Bytes -> string)
    requires f.size > 0 && f.parses && NameExists(dir, name)
    requires n >= MaxRetries
    ensures BoundedRetryLoop(seq(n, _ => Found(f)), name, dir, md5, 0) == Run(false, MaxRetries, MaxRetries, dir)
  {
  }

  /** The two loops agree whenever every unsuccessful attempt is one the
      original already counted (no PDF, or an exception). */
  lemma {:induction false} BoundedAgreesOnCountedFailures(obs: seq<Attempt>, name: string, dir: Dir,
                                                          md5: Bytes -> string, retries: nat)
    requires retries <= MaxRetries
    requires forall k :: 0 <= k < |obs| ==>
               Decide(obs[k], name, dir, md5) == Moved || ConsumesRetry(Decide(obs[k], name, dir, md5))
    ensures BoundedRetryLoop(obs, name, dir, md5, retries) == RetryLoop(obs, name, dir, md5, retries)
    decreases |obs|
  {
    if retries < MaxRetries && |obs| > 0 {
      var d := Decide(obs[0], name, dir, md5);
      if d != Moved {
        assert ConsumesRetry(d);
        var rest := obs[1..];
        forall k | 0 <= k < |rest|
          ensures Decide(rest[k], name, dir, md5) == Moved || ConsumesRetry(Decide(rest[k], name, dir, md5))
        {
          assert rest[k] == obs[k + 1];
        }
        BoundedAgreesOnCountedFailures(rest, name, dir, md5, retries + 1);
      }
    }
  }

  // ---------------------------------------------------------------------
  // process_all_dois
  // ---------------------------------------------------------------------

  const DoiNotFound: string := "DOI 未找到"

  /** A DOI cell survives the filter: present, and not the "not found"
      marker once stripped. */
  predicate IsValidDoiCell(c: Option<string>) {
    c.Some? && Strip(c.value) != DoiNotFound
  }

  /** The raw texts of the valid cells. */
  function ValidTexts(cells: seq<Option<string>>): set<string> {
    set i | 0 <= i < |cells| && IsValidDoiCell(cells[i]) :: cells[i].value
  }

  /** `df[df["DOI"].notna() & (df["DOI"].str.strip() != "DOI 未找到")]["DOI"]`:
      the valid cells' texts, in sheet order. */
  function ValidValues(cells: seq<Option<string>>): (vs: seq<string>)
    ensures forall k :: 0 <= k < |vs| ==> Strip(vs[k]) != DoiNotFound && vs[k] in ValidTexts(cells)
    ensures forall i :: 0 <= i < |cells| && IsValidDoiCell(cells[i]) ==> cells[i].value in vs
    decreases |cells|
  {
    if |cells| == 0 then []
    else
      var rest := ValidValues(cells[1..]);
      var vs := (if IsValidDoiCell(cells[0]) then [cells[0].value] else []) + rest;
      forall k | 0 <= k < |vs|
        ensures vs[k] in ValidTexts(cells)
      {
        if vs[k] in rest {
          var i :| 0 <= i < |cells[1..]| && IsValidDoiCell(cells[1..][i]) && cells[1..][i].value == vs[k];
          assert cells[i + 1] == cells[1..][i];
        }
      }
      forall i | 1 <= i < |cells| && IsValidDoiCell(cells[i])
        ensures cells[i].value in vs
      {
        assert cells[i] == cells[1..][i - 1];
      }
      vs
  }

  /** pandas `drop_duplicates` on a column: every value once. Only the
      members are stated; their order is not needed downstream. */
  function DropDuplicates(xs: seq<string>): (ys: seq<string>)
    ensures forall x :: x in ys <==> x in xs
    ensures forall i, j :: 0 <= i < j < |ys| ==> ys[i] != ys[j]
    decreases |xs|
  {
    if |xs| == 0 then []
    else
      var n := |xs| - 1;
      var ys := DropDuplicates(xs[..n]);
      assert forall x :: x in xs <==> x in xs[..n] || x == xs[n] by {
        assert xs == xs[..n] + [xs[n]];
      }
      if xs[n] in xs[..n] then ys else ys + [xs[n]]
  }

  /** Each text stripped, in place. */
  function StripEach(xs: seq<string>): (ys: seq<string>)
    ensures |ys| == |xs|
    ensures forall k :: 0 <= k < |xs| ==> ys[k] == Strip(xs[k])
  {
    seq(|xs|, k requires 0 <= k < |xs| => Strip(xs[k]))
  }

  /** The DOIs `process_all_dois` hands to the workers: the valid cells,
      de-duplicated on their raw text, then each stripped. */
  function ProcessedDois(cells: seq<Option<string>>): (dois: seq<string>)
    ensures forall d :: d in dois ==> Strip(d) == d && d != DoiNotFound
    ensures forall i :: 0 <= i < |cells| && IsValidDoiCell(cells[i]) ==> Strip(cells[i].value) in dois
  {
    var kept := DropDuplicates(ValidValues(cells));
    var dois := StripEach(kept);
    forall d | d in dois
      ensures Strip(d) == d && d != DoiNotFound
    {
      var k :| 0 <= k < |kept| && dois[k] == d;
      StripIdempotent(kept[k]);
      assert kept[k] in ValidValues(cells);
    }
    forall i | 0 <= i < |cells| && IsValidDoiCell(cells[i])
      ensures Strip(cells[i].value) in dois
    {
      assert cells[i].value in ValidValues(cells);
      var k :| 0 <= k < |kept| && kept[k] == cells[i].value;
      assert dois[k] == Strip(cells[i].value);
    }
    dois
  }

  /** Nothing is invented: every DOI handed on is the stripped text of a
      valid cell. */
  lemma ProcessedDoisFromCells(cells: seq<Option<string>>)
    ensures forall d :: d in ProcessedDois(cells) ==>
              exists i :: 0 <= i < |cells| && IsValidDoiCell(cells[i]) && Strip(cells[i].value) == d
  {
    var kept := DropDuplicates(ValidValues(cells));
    var dois := ProcessedDois(cells);
    assert dois == StripEach(kept);
    forall d | d in dois
      ensures exists i :: 0 <= i < |cells| && IsValidDoiCell(cells[i]) && Strip(cells[i].value) == d
    {
      var k :| 0 <= k < |kept| && dois[k] == d;
      assert kept[k] in ValidValues(cells);
      var j :| 0 <= j < |ValidValues(cells)| && ValidValues(cells)[j] == kept[k];
      assert kept[k] in ValidTexts(cells);
      var i :| 0 <= i < |cells| && IsValidDoiCell(cells[i]) && cells[i].value == kept[k];
    }
  }

  /** The two spellings of one DOI used by the examples below. */
  lemma PaddedDoiCells()
    ensures Strip("10.1/x") == "10.1/x" && Strip(" 10.1/x") == "10.1/x"
    ensures IsValidDoiCell(Some("10.1/x")) && IsValidDoiCell(Some(" 10.1/x"))
  {
    var d := "10.1/x";
    assert !IsSpace(d[0]) && !IsSpace(d[|d| - 1]);
    assert Strip(d) == d;
    assert " 10.1/x"[1..] == d;
    assert IsSpace(" 10.1/x"[0]);
    assert d != DoiNotFound by {
      assert d[0] != DoiNotFound[0];
    }
  }

  /** De-duplication happens before stripping, so two valid cells that
      differ only in surrounding whitespace give the same DOI twice. */
  lemma ProcessedDoisMayRepeat(a: string, b: string)
    requires a != b && Strip(a) == Strip(b)
    requires IsValidDoiCell(Some(a)) && IsValidDoiCell(Some(b))
    ensures ProcessedDois([Some(a), Some(b)]) == [Strip(a), Strip(a)]
  {
    var cells := [Some(a), Some(b)];
    TwoValidCells(cells);
    TwoDistinctKept([a, b]);
    StripPair(a, b);
  }

  lemma StripPair(a: string, b: string)
    ensures StripEach([a, b]) == [Strip(a), Strip(b)]
  {
  }

  /** The cells " 10.1/x" and "10.1/x" meet the requirements of
      `ProcessedDoisMayRepeat` and `PaddedDoiLosesPmid`. */
  lemma PaddedDoiExample()
    ensures " 10.1/x" != "10.1/x" && Strip(" 10.1/x") == Strip("10.1/x") == "10.1/x"
    ensures IsValidDoiCell(Some(" 10.1/x")) && IsValidDoiCell(Some("10.1/x"))
  {
    PaddedDoiCells();
  }

  lemma TwoValidCells(cells: seq<Option<string>>)
    requires |cells| == 2 && IsValidDoiCell(cells[0]) && IsValidDoiCell(cells[1])
    ensures ValidValues(cells) == [cells[0].value, cells[1].value]
  {
    var tail := cells[1..];
    assert tail[1..] == [] && tail[0] == cells[1];
    assert ValidValues(tail) == [cells[1].value] + ValidValues(tail[1..]);
  }

  lemma TwoDistinctKept(vs: seq<string>)
    requires |vs| == 2 && vs[0] != vs[1]
    ensures DropDuplicates(vs) == vs
  {
    var first := vs[..1];
    assert first[..0] == [] && first[0] == vs[0];
    assert DropDuplicates(first) == [vs[0]];
    assert vs[1] !in first;
    assert vs[..|vs| - 1] == first;
  }

  function Count(results: seq<bool>, b: bool): (n: nat)
    ensures n <= |results|
  {
    if |results| == 0 then 0
    else (if results[0] == b then 1 else 0) + Count(results[1..], b)
  }

  /** The closing summary: successes are the true results and
      `failed = total - successful` counts exactly the false ones. */
  function Summary(results: seq<bool>): (counts: (nat, nat))
    ensures counts.0 == Count(results, true)
    ensures counts.1 == Count(results, false)
    ensures counts.0 + counts.1 == |results|
  {
    CountSplits(results);
    var successful := Count(results, true);
    (successful, |results| - successful)
  }

  lemma {:induction false} CountSplits(results: seq<bool>)
    ensures Count(results, true) + Count(results, false) == |results|
  {
    if |results| > 0 {
      CountSplits(results[1..]);
    }
  }

  // ---------------------------------------------------------------------
  // The DOI/PMID key mismatch
  // ---------------------------------------------------------------------

  /** As written: the map is keyed by the raw DOI text, but it is looked up
      with the stripped DOI. A row whose DOI cell carries leading or
      trailing whitespace therefore loses its PMID. */
  lemma PaddedDoiLosesPmid(doi: string, pmid: string)
    requires Strip(doi) != doi && IsValidDoiCell(Some(doi))
    ensures ProcessedDois([Some(doi)]) == [Strip(doi)]
    ensures DerivePmid(PmidMap([Row(doi, pmid)]), Strip(doi)) == UnknownPmid
  {
    OneProcessed(doi);
    OneRowKey(doi, pmid);
  }

  /** A single valid cell is handed on stripped. */
  lemma OneProcessed(doi: string)
    requires IsValidDoiCell(Some(doi))
    ensures ProcessedDois([Some(doi)]) == [Strip(doi)]
  {
    OneValidCell([Some(doi)]);
    OneKept([doi]);
    assert ProcessedDois([Some(doi)]) == StripEach([doi]);
  }

  /** The map of a single row has that row's raw DOI as its only key. */
  lemma OneRowKey(doi: string, pmid: string)
    ensures PmidMap([Row(doi, pmid)]).Keys == {doi}
  {
    var rows := [Row(doi, pmid)];
    assert DoiSet(rows[..0]) == {};
  }

  lemma OneValidCell(cells: seq<Option<string>>)
    requires |cells| == 1 && IsValidDoiCell(cells[0])
    ensures ValidValues(cells) == [cells[0].value]
  {
    assert cells[1..] == [];
  }

  lemma OneKept(vs: seq<string>)
    requires |vs| == 1
    ensures DropDuplicates(vs) == vs
  {
    assert vs[..0] == [];
  }

  /** The rows with each DOI stripped, as the lookup side strips it. */
  function StripDois(rows: seq<Row>): (out: seq<Row>)
    ensures |out| == |rows|
    ensures forall i :: 0 <= i < |rows| ==> out[i].doi == Strip(rows[i].doi) && out[i].pmid == rows[i].pmid
  {
    seq(|rows|, i requires 0 <= i < |rows| => Row(Strip(rows[i].doi), rows[i].pmid))
  }

  /** The map keyed as it is looked up: by the stripped DOI. */
  function StrippedPmidMap(rows: seq<Row>): map<string, string> {
    PmidMap(StripDois(rows))
  }

  /** With the stripped keys, every processed DOI finds the PMID of its
      row (the last row with that DOI), whatever whitespace its cell held. */
  lemma StrippedLookupFindsPmid(rows: seq<Row>, i: nat)
    requires i < |rows|
    requires forall j :: i < j < |rows| ==> Strip(rows[j].doi) != Strip(rows[i].doi)
    requires Strip(rows[i].pmid) != ""
    ensures DerivePmid(StrippedPmidMap(rows), Strip(rows[i].doi)) == rows[i].pmid
  {
    var keyed := StripDois(rows);
    assert forall j :: i < j < |keyed| ==> keyed[j].doi != keyed[i].doi;
  }
  /** The DOI column of the sheet, as `process_all_dois` reads it. */
  function DoiCells(rows: seq<Row>): (cells: seq<Option<string>>)
    ensures |cells| == |rows|
    ensures forall i :: 0 <= i < |rows| ==> cells[i] == Some(rows[i].doi)
  {
    seq(|rows|, i requires 0 <= i < |rows| => Some(rows[i].doi))
  }

  /** With the stripped keys, no processed DOI misses the map: each one is a
      key, and its value is the PMID of the last row with that stripped
      DOI. So the fallback to "Unknown_PMID" happens only for a blank PMID. */
  lemma ProcessedDoiFindsPmid(rows: seq<Row>, d: string)
    requires d in ProcessedDois(DoiCells(rows))
    ensures d in StrippedPmidMap(rows)
    ensures exists k :: 0 <= k < |rows| && Strip(rows[k].doi) == d
                        && StrippedPmidMap(rows)[d] == rows[k].pmid
                        && forall j :: k < j < |rows| ==> Strip(rows[j].doi) != d
  {
    var cells := DoiCells(rows);
    ProcessedDoisFromCells(cells);
    var i :| 0 <= i < |cells| && IsValidDoiCell(cells[i]) && Strip(cells[i].value) == d;
    RowFindsPmid(rows, d, i);
  }

  /** A stripped DOI of some row is a key of the stripped map, and its value
      is the PMID of the last row with that stripped DOI. */
  lemma RowFindsPmid(rows: seq<Row>, d: string, i: nat)
    requires i < |rows| && Strip(rows[i].doi) == d
    ensures d in StrippedPmidMap(rows)
    ensures exists k :: 0 <= k < |rows| && Strip(rows[k].doi) == d
                        && StrippedPmidMap(rows)[d] == rows[k].pmid
                        && forall j :: k < j < |rows| ==> Strip(rows[j].doi) != d
  {
    var keyed := StripDois(rows);
    assert keyed[i].doi == d;
    LastRowWith(keyed, d, i);
    var k :| i <= k < |keyed| && keyed[k].doi == d && forall j :: k < j < |keyed| ==> keyed[j].doi != d;
    MapAtLastRow(keyed, k);
    assert Strip(rows[k].doi) == d && StrippedPmidMap(rows)[d] == rows[k].pmid;
    assert forall j :: k < j < |rows| ==> Strip(rows[j].doi) != d by {
      forall j | k < j < |rows|
        ensures Strip(rows[j].doi) != d
      {
        assert keyed[j].doi == Strip(rows[j].doi);
      }
    }
  }

  /** The map's value for the DOI of a row with no later row of that DOI is
      that row's PMID. */
  lemma MapAtLastRow(rows: seq<Row>, k: nat)
    requires k < |rows| && forall j :: k < j < |rows| ==> rows[j].doi != rows[k].doi
    ensures rows[k].doi in PmidMap(rows) && PmidMap(rows)[rows[k].doi] == rows[k].pmid
  {
  }

  /** Some row with the given DOI has no later row with that DOI. */
  lemma {:induction false} LastRowWith(rows: seq<Row>, d: string, i: nat)
    requires i < |rows| && rows[i].doi == d
    ensures exists k :: i <= k < |rows| && rows[k].doi == d && forall j :: k < j < |rows| ==> rows[j].doi != d
    decreases |rows| - i
  {
    if exists j :: i < j < |rows| && rows[j].doi == d {
      var j :| i < j < |rows| && rows[j].doi == d;
      LastRowWith(rows, d, j);
    } else {
      assert forall j :: i < j < |rows| ==> rows[j].doi != d;
    }
  }


  /** `download_and_rename_pdf` for one DOI, with both corrections below:
      the PMID is looked up by the stripped DOI, and every unsuccessful
      attempt spends a retry. */
  function DownloadAndRename(rows: seq<Row>, doi: string, obs: seq<Attempt>, dir: Dir,
                             md5: Bytes -> string): (run: Run)
    ensures run.success ==> !NameExists(dir, TargetName(DerivePmid(StrippedPmidMap(rows), doi)))
    ensures run.success ==> |run.dir| == |dir| + 1 && run.dir[..|dir|] == dir
                            && run.dir[|dir|].name == TargetName(DerivePmid(StrippedPmidMap(rows), doi))
    ensures !run.success ==> run.dir == dir
    ensures run.attempts <= MaxRetries
    ensures run == BoundedRetryLoop(obs, TargetName(DerivePmid(StrippedPmidMap(rows), doi)), dir, md5, 0)
    ensures run.success <==> run.attempts > 0
                             && Decide(obs[run.attempts - 1], TargetName(DerivePmid(StrippedPmidMap(rows), doi)),
                                       dir, md5) == Moved
    ensures UniqueNames(dir) ==> UniqueNames(run.dir)
  {
    var name := TargetName(DerivePmid(StrippedPmidMap(rows), doi));
    var r := BoundedRetryLoop(obs, name, dir, md5, 0);
    assert r.success ==> (r.dir[..|dir|] == dir);
    if r.success && UniqueNames(dir) then
      AddFreshKeepsUnique(dir, r.dir[|dir|]);
      r
    else r
  }
}

=== FILE: seqs.dfy ===
/** First-match search over a sequence, the shape of every "take the first
    element that qualifies" rule in the downloaders. */
module Seqs {

  /** The index of the first element satisfying `p`, or `|xs|` when none
      does. */
  function FirstWhere<T>(xs: seq<T>, p: T -> bool): (i: nat)
    ensures i <= |xs|
    ensures i < |xs| ==> p(xs[i])
    ensures forall j :: 0 <= j < i ==> !p(xs[j])
    decreases |xs|
  {
    if |xs| == 0 then 0
    else if p(xs[0]) then 0
    else 1 + FirstWhere(xs[1..], p)
  }

  /** The elements satisfying `p`, in order (a list comprehension with a
      filter). */
  function Filter<T(!new)>(xs: seq<T>, p: T -> bool): (ys: seq<T>)
    ensures |ys| <= |xs|
    ensures forall x :: x in ys <==> x in xs && p(x)
    decreases |xs|
  {
    if |xs| == 0 then []
    else if p(xs[0]) then [xs[0]] + Filter(xs[1..], p)
    else Filter(xs[1..], p)
  }

  /** The head of the filtered list is the first qualifying element. */
  lemma {:induction false} FilterHeadIsFirst<T(!new)>(xs: seq<T>, p: T -> bool)
    ensures |Filter(xs, p)| > 0 <==> FirstWhere(xs, p) < |xs|
    ensures |Filter(xs, p)| > 0 ==> Filter(xs, p)[0] == xs[FirstWhere(xs, p)]
    decreases |xs|
  {
    if |xs| > 0 && !p(xs[0]) {
      FilterHeadIsFirst(xs[1..], p);
    }
  }

  /** A match in the front of a list is found before anything appended. */
  lemma FirstWhereAppend<T>(xs: seq<T>, ys: seq<T>, p: T -> bool)
    requires FirstWhere(xs, p) < |xs|
    ensures FirstWhere(xs + ys, p) == FirstWhere(xs, p)
  {
    var i := FirstWhere(xs, p);
    assert (xs + ys)[i] == xs[i];
  }

  /** No element occurs twice. */
  predicate Distinct<T(==)>(xs: seq<T>) {
    forall i, j :: 0 <= i < j < |xs| ==> xs[i] != xs[j]
  }

  /** Filtering keeps a list free of repeats. */
  lemma {:induction false} FilterDistinct<T(!new)>(xs: seq<T>, p: T -> bool)
    requires Distinct(xs)
    ensures Distinct(Filter(xs, p))
    decreases |xs|
  {
    if |xs| > 0 {
      var rest := xs[1..];
      assert Distinct(rest) by {
        forall i, j | 0 <= i < j < |rest|
          ensures rest[i] != rest[j]
        {
          assert rest[i] == xs[i + 1] && rest[j] == xs[j + 1];
        }
      }
      FilterDistinct(rest, p);
      assert xs[0] !in rest by {
        forall k | 0 <= k < |rest|
          ensures rest[k] != xs[0]
        {
          assert rest[k] == xs[k + 1];
        }
      }
    }
  }

  /** A list is free of repeats exactly when each element is counted at
      most once, so any permutation of such a list is free of repeats. */
  lemma {:induction false} DistinctCounts<T>(xs: seq<T>)
    ensures Distinct(xs) <==> forall x :: multiset(xs)[x] <= 1
    decreases |xs|
  {
    if |xs| > 0 {
      var a, rest := xs[0], xs[1..];
      assert xs == [a] + rest;
      DistinctCounts(rest);
      assert multiset(xs) == multiset{a} + multiset(rest);
      if Distinct(xs) {
        assert Distinct(rest) by {
          forall i, j | 0 <= i < j < |rest|
            ensures rest[i] != rest[j]
          {
            assert rest[i] == xs[i + 1] && rest[j] == xs[j + 1];
          }
        }
        assert a !in rest by {
          forall k | 0 <= k < |rest|
            ensures rest[k] != a
          {
            assert rest[k] == xs[k + 1];
          }
        }
        assert multiset(rest)[a] == 0;
      } else {
        var i, j :| 0 <= i < j < |xs| && xs[i] == xs[j];
        if i == 0 {
          assert xs[j] == rest[j - 1];
          assert multiset(rest)[a] >= 1;
          assert multiset(xs)[a] >= 2;
        } else {
          assert rest[i - 1] == xs[i] && rest[j - 1] == xs[j];
          assert !Distinct(rest);
          var x :| multiset(rest)[x] > 1;
          assert multiset(xs)[x] > 1;
        }
      }
    }
  }
}

=== FILE: text.dfy ===
/** The handful of Python `str` operations the harvesting rules are written
    in: `strip`, `lower`, `isdigit`, `startswith`/`endswith`, `in`,
    `split` and `replace`, plus `str(int)`, `os.path.join` and the
    code-point ordering `sorted` uses. Each is defined once here and then
    characterised by its contract. */
module Text {
  import opened Wrappers

  // ---------------------------------------------------------------------
  // Whitespace and strip()
  // ---------------------------------------------------------------------

  /** The characters Python's `str.isspace()` accepts (and `str.strip()`
      with no argument removes). */
  const Spaces: set<char> := {' ', '\t', '\n', '\U{B}', '\U{C}', '\r', '\U{1C}', '\U{1D}', '\U{1E}', '\U{1F}', '\U{85}', '\U{A0}', '\U{1680}', '\U{2000}', '\U{2001}', '\U{2002}', '\U{2003}', '\U{2004}', '\U{2005}', '\U{2006}', '\U{2007}', '\U{2008}', '\U{2009}', '\U{200A}', '\U{2028}', '\U{2029}', '\U{202F}', '\U{205F}', '\U{3000}'}
  predicate IsSpace(c: char) {
    c in Spaces
  }

  /** Every character is whitespace (vacuously true of ""). */
  predicate IsBlank(s: string) {
    forall k :: 0 <= k < |s| ==> IsSpace(s[k])
  }

  /** Python's `s.strip()`: whitespace removed from both ends. */
  function Strip(s: string): (r: string)
    ensures r == "" <==> IsBlank(s)
    ensures r != "" ==> !IsSpace(r[0]) && !IsSpace(r[|r| - 1])
    decreases |s|
  {
    if s == "" then ""
    else if IsSpace(s[0]) then
      assert IsBlank(s) <==> IsBlank(s[1..]) by {
        assert forall k :: 0 <= k < |s[1..]| ==> s[1..][k] == s[k + 1];
      }
      Strip(s[1..])
    else if IsSpace(s[|s| - 1]) then
      assert !IsBlank(s);
      Strip(s[..|s| - 1])
    else s
  }

  /** `r` is the slice of `s` starting at `i`, with only whitespace on
      either side of it. */
  predicate TrimmedAt(s: string, r: string, i: int) {
    0 <= i <= |s| - |r| && r == s[i..i + |r|] && IsBlank(s[..i]) && IsBlank(s[i + |r|..])
  }

  /** A whitespace character in front keeps a trimmed slice trimmed. */
  lemma TrimmedAfterSpace(s: string, r: string, i: int)
    requires s != "" && IsSpace(s[0]) && TrimmedAt(s[1..], r, i)
    ensures TrimmedAt(s, r, i + 1)
  {
    var t := s[1..];
    forall k | 0 <= k < i + 1
      ensures IsSpace(s[k])
    {
      if k > 0 { assert s[k] == t[..i][k - 1]; }
    }
    assert s[i + 1 + |r|..] == t[i + |r|..];
  }

  /** A whitespace character behind keeps a trimmed slice trimmed. */
  lemma TrimmedBeforeSpace(s: string, r: string, i: int)
    requires s != "" && IsSpace(s[|s| - 1]) && TrimmedAt(s[..|s| - 1], r, i)
    ensures TrimmedAt(s, r, i)
  {
    var t := s[..|s| - 1];
    assert s[..i] == t[..i];
    assert s[i..i + |r|] == t[i..i + |r|];
    var tail := s[i + |r|..];
    forall k | 0 <= k < |tail|
      ensures IsSpace(tail[k])
    {
      if k < |tail| - 1 { assert tail[k] == t[i + |r|..][k]; }
    }
  }

  /** What `strip` removes is whitespace, and only from the two ends: the
      result is a slice of `s` with blank text on either side. */
  lemma {:induction false} StripIsTrim(s: string)
    ensures exists i :: TrimmedAt(s, Strip(s), i)
    decreases |s|
  {
    var r := Strip(s);
    if s == "" {
      assert TrimmedAt(s, r, 0);
    } else if IsSpace(s[0]) {
      StripIsTrim(s[1..]);
      var i :| TrimmedAt(s[1..], r, i);
      TrimmedAfterSpace(s, r, i);
    } else if IsSpace(s[|s| - 1]) {
      StripIsTrim(s[..|s| - 1]);
      var i :| TrimmedAt(s[..|s| - 1], r, i);
      TrimmedBeforeSpace(s, r, i);
    } else {
      assert s[..0] == "" && s[0..|s|] == s && s[|s|..] == "";
      assert TrimmedAt(s, r, 0);
    }
  }

  /** Stripping twice is stripping once. */
  lemma StripIdempotent(s: string)
    ensures Strip(Strip(s)) == Strip(s)
  {
  }

  // ---------------------------------------------------------------------
  // Prefix, suffix and substring tests
  // ---------------------------------------------------------------------

  /** Python's `s.startswith(p)`. */
  predicate StartsWith(s: string, p: string) {
    |p| <= |s| && s[..|p|] == p
  }

  /** Python's `s.endswith(p)`. */
  predicate EndsWith(s: string, p: string) {
    |p| <= |s| && s[|s| - |p|..] == p
  }

  /** Python's `p in s`: `p` starts at some position of `s`. */
  predicate Contains(s: string, p: string)
    decreases |s|
  {
    StartsWith(s, p) || (s != "" && Contains(s[1..], p))
  }

  /** A text shorter than a non-empty pattern does not contain it. */
  lemma {:induction false} ShortLacks(s: string, p: string)
    requires |s| < |p|
    ensures !Contains(s, p)
    decreases |s|
  {
    if s != "" {
      ShortLacks(s[1..], p);
    }
  }

  /** `p in a + p + b`, whatever surrounds the occurrence. */
  lemma {:induction false} ContainsMiddle(a: string, p: string, b: string)
    ensures Contains(a + p + b, p)
    decreases |a|
  {
    var s := a + p + b;
    if a == "" {
      assert s[..|p|] == p;
    } else {
      assert s[1..] == a[1..] + p + b;
      ContainsMiddle(a[1..], p, b);
    }
  }

  /** A one-character pattern occurs exactly when the character does. */
  lemma {:induction false} ContainsChar(s: string, c: char)
    ensures Contains(s, [c]) <==> c in s
    decreases |s|
  {
    if s != "" {
      ContainsChar(s[1..], c);
      assert s == [s[0]] + s[1..];
    }
  }

  // ---------------------------------------------------------------------
  // split(), join() and replace()
  // ---------------------------------------------------------------------

  /** Python's `sep.join(parts)`. */
  function JoinWith(parts: seq<string>, sep: string): string
  {
    if |parts| == 0 then ""
    else if |parts| == 1 then parts[0]
    else parts[0] + sep + JoinWith(parts[1..], sep)
  }

  /** Prepend one character to the first piece. */
  function ConsHead(c: char, ps: seq<string>): seq<string>
    requires |ps| >= 1
  {
    [[c] + ps[0]] + ps[1..]
  }

  /** Python's `s.split(sep)` for a non-empty separator, scanning left to
      right: an occurrence of `sep` at the front closes an (empty) piece,
      any other character joins the current piece. */
  function Pieces(s: string, sep: string): (ps: seq<string>)
    requires sep != ""
    ensures |ps| >= 1
    decreases |s|
  {
    if StartsWith(s, sep) then [""] + Pieces(s[|sep|..], sep)
    else if s == "" then [""]
    else ConsHead(s[0], Pieces(s[1..], sep))
  }

  /** `split` loses nothing and keeps no separator: joining the pieces back
      with `sep` gives `s`, no piece contains `sep`, and there is more than
      one piece exactly when `sep` occurs. */
  function Split(s: string, sep: string): (parts: seq<string>)
    requires sep != ""
    ensures |parts| >= 1
    ensures JoinWith(parts, sep) == s
    ensures forall k :: 0 <= k < |parts| ==> !Contains(parts[k], sep)
    ensures |parts| == 1 <==> !Contains(s, sep)
  {
    PiecesJoin(s, sep);
    PiecesLackSep(s, sep);
    PiecesCount(s, sep);
    Pieces(s, sep)
  }

  lemma {:induction false} PiecesJoin(s: string, sep: string)
    requires sep != ""
    ensures JoinWith(Pieces(s, sep), sep) == s
    decreases |s|
  {
    if StartsWith(s, sep) {
      var t := s[|sep|..];
      PiecesJoin(t, sep);
      JoinEmptyFirst(Pieces(t, sep), sep);
      assert s == sep + t;
    } else if s == "" {
      assert Pieces(s, sep) == [""];
    } else {
      PiecesJoin(s[1..], sep);
      JoinConsHead(s, sep);
    }
  }

  /** Joining after an empty first piece starts with the separator. */
  lemma JoinEmptyFirst(r: seq<string>, sep: string)
    requires |r| >= 1
    ensures JoinWith([""] + r, sep) == sep + JoinWith(r, sep)
  {
    var ps := [""] + r;
    assert ps[1..] == r;
    assert ps[0] == "";
  }

  /** The step of `PiecesJoin` for a character that starts no separator. */
  lemma JoinConsHead(s: string, sep: string)
    requires sep != "" && s != "" && JoinWith(Pieces(s[1..], sep), sep) == s[1..]
    ensures JoinWith(ConsHead(s[0], Pieces(s[1..], sep)), sep) == s
  {
    var t := s[1..];
    var r := Pieces(t, sep);
    var ps := ConsHead(s[0], r);
    assert s == [s[0]] + t;
    if |r| > 1 {
      assert ps[1..] == r[1..];
      var rest := JoinWith(r[1..], sep);
      assert JoinWith(ps, sep) == ([s[0]] + r[0]) + sep + rest;
      assert t == r[0] + sep + rest;
    } else {
      assert ps == [[s[0]] + r[0]];
      assert r[0] == t;
    }
  }

  lemma {:induction false} PiecesLackSep(s: string, sep: string)
    requires sep != ""
    ensures forall k :: 0 <= k < |Pieces(s, sep)| ==> !Contains(Pieces(s, sep)[k], sep)
    decreases |s|
  {
    var ps := Pieces(s, sep);
    if StartsWith(s, sep) {
      PiecesLackSep(s[|sep|..], sep);
      assert !Contains("", sep);
      assert forall k :: 1 <= k < |ps| ==> ps[k] == Pieces(s[|sep|..], sep)[k - 1];
    } else if s == "" {
    } else {
      var r := Pieces(s[1..], sep);
      PiecesLackSep(s[1..], sep);
      PiecesJoin(s[1..], sep);
      var h := [s[0]] + r[0];
      var tail := if |r| > 1 then sep + JoinWith(r[1..], sep) else "";
      assert s == h + tail by {
        assert s[1..] == r[0] + tail;
      }
      assert h[1..] == r[0];
      HeadLacksSep(h, tail, sep);
      assert forall k :: 1 <= k < |ps| ==> ps[k] == r[k];
    }
  }

  /** A text that starts with `p` still does after anything is appended. */
  lemma StartsWithAppend(h: string, tail: string, p: string)
    requires StartsWith(h, p)
    ensures StartsWith(h + tail, p)
  {
    assert (h + tail)[..|p|] == h[..|p|];
  }

  /** The first piece after a character that starts no separator still
      lacks the separator. */
  lemma HeadLacksSep(h: string, tail: string, sep: string)
    requires sep != "" && h != "" && !StartsWith(h + tail, sep) && !Contains(h[1..], sep)
    ensures !Contains(h, sep)
  {
    if StartsWith(h, sep) {
      StartsWithAppend(h, tail, sep);
      assert false;
    }
  }

  lemma {:induction false} PiecesCount(s: string, sep: string)
    requires sep != ""
    ensures |Pieces(s, sep)| == 1 <==> !Contains(s, sep)
    decreases |s|
  {
    if !StartsWith(s, sep) && s != "" {
      PiecesCount(s[1..], sep);
    }
  }

  /** The last piece of `s.split(sep)`, i.e. `s.split(sep)[-1]`. */
  function LastPiece(s: string, sep: string): (r: string)
    requires sep != ""
    ensures !Contains(r, sep)
    ensures !Contains(s, sep) ==> r == s
    ensures EndsWith(s, r)
  {
    var parts := Split(s, sep);
    LastOfJoinIsSuffix(parts, sep);
    parts[|parts| - 1]
  }

  /** Whatever precedes the last occurrence of a border-free separator, the
      last piece is exactly the text after it. */
  lemma LastPieceAfterSep(prefix: string, sep: string, last: string)
    requires sep != "" && NoBorder(sep) && !Contains(last, sep)
    ensures LastPiece(prefix + sep + last, sep) == last
  {
    SplitAround(prefix, sep, last);
    PiecesCount(last, sep);
    PiecesJoin(last, sep);
    var ps := Pieces(last, sep);
    assert ps == [last] by {
      assert |ps| == 1;
    }
  }

  lemma LastOfJoinIsSuffix(parts: seq<string>, sep: string)
    requires |parts| >= 1
    ensures EndsWith(JoinWith(parts, sep), parts[|parts| - 1])
  {
    if |parts| > 1 {
      LastOfJoinIsSuffix(parts[1..], sep);
    }
  }

  /** Python's `s.replace(old, new)` for a non-empty `old`: every occurrence
      found scanning left to right is replaced. */
  function ReplaceAll(s: string, pat: string, rep: string): (r: string)
    requires pat != ""
    ensures !Contains(s, pat) ==> r == s
    ensures rep == pat ==> r == s
  {
    JoinWith(Split(s, pat), rep)
  }

  /** No proper suffix of `p` is also a prefix of `p`: two occurrences of
      such a pattern can never overlap. */
  predicate NoBorder(p: string) {
    forall k :: 0 < k < |p| ==> !IsBorder(p, k)
  }

  /** The suffix of `p` from `k` on equals the prefix of the same length. */
  predicate IsBorder(p: string, k: int)
    requires 0 < k < |p|
  {
    p[k..] == p[..|p| - k]
  }

  /** A pattern whose first character never recurs has no border. */
  lemma HeadUniqueNoBorder(p: string)
    requires |p| > 0
    requires forall k :: 0 < k < |p| ==> p[k] != p[0]
    ensures NoBorder(p)
  {
    forall k | 0 < k < |p|
      ensures !IsBorder(p, k)
    {
      assert p[k..][0] != p[..|p| - k][0];
    }
  }

  /** An occurrence of `sep` that starts inside a short `a` and runs into
      the copy of `sep` after it exhibits a border of `sep`. */
  lemma StraddleIsBorder(a: string, sep: string, b: string)
    requires 0 < |a| < |sep|
    requires StartsWith(a + sep + b, sep)
    ensures IsBorder(sep, |a|)
  {
    var s := a + sep + b;
    var k := |a|;
    forall t | 0 <= t < |sep| - k
      ensures sep[k..][t] == sep[..|sep| - k][t]
    {
      assert s[k + t] == sep[k + t];
      assert s[|a| + t] == sep[t];
    }
  }

  /** Splitting around a border-free separator that is known to be there. */
  lemma {:induction false} SplitAround(a: string, sep: string, b: string)
    requires sep != "" && NoBorder(sep)
    ensures Pieces(a + sep + b, sep) == Pieces(a, sep) + Pieces(b, sep)
    decreases |a|
  {
    var s := a + sep + b;
    if a == "" {
      assert s == sep + b;
      assert s[|sep|..] == b;
    } else if StartsWith(a, sep) {
      assert s[..|sep|] == a[..|sep|];
      assert s[|sep|..] == a[|sep|..] + sep + b;
      SplitAround(a[|sep|..], sep, b);
    } else {
      if StartsWith(s, sep) {
        if |a| < |sep| {
          StraddleIsBorder(a, sep, b);
        }
        assert false;
      }
      assert s[1..] == a[1..] + sep + b;
      SplitAround(a[1..], sep, b);
      ConsHeadAppend(s[0], Pieces(a[1..], sep), Pieces(b, sep));
    }
  }

  lemma ConsHeadAppend(c: char, p: seq<string>, q: seq<string>)
    requires |p| >= 1
    ensures ConsHead(c, p + q) == ConsHead(c, p) + q
  {
    assert (p + q)[0] == p[0];
    assert (p + q)[1..] == p[1..] + q;
  }

  /** Replacing a border-free pattern in `u + pat` replaces the final
      occurrence too: the result ends with the replacement. */
  lemma ReplaceAtEnd(u: string, pat: string, rep: string)
    requires pat != "" && NoBorder(pat)
    ensures ReplaceAll(u + pat, pat, rep) == ReplaceAll(u, pat, rep) + rep
  {
    SplitAround(u, pat, "");
    assert u + pat + "" == u + pat;
    assert Pieces("", pat) == [""];
    JoinAppendEmpty(Pieces(u, pat), rep);
  }

  lemma JoinAppendEmpty(parts: seq<string>, sep: string)
    requires |parts| >= 1
    ensures JoinWith(parts + [""], sep) == JoinWith(parts, sep) + sep
  {
    if |parts| > 1 {
      assert (parts + [""])[1..] == parts[1..] + [""];
      JoinAppendEmpty(parts[1..], sep);
    }
  }

  // ---------------------------------------------------------------------
  // lower(), isdigit(), str(int)
  // ---------------------------------------------------------------------

  function LowerChar(c: char): char {
    if 'A' <= c <= 'Z' then (c as int + 32) as char else c
  }

  /** Python's `s.lower()` on ASCII letters. */
  function Lower(s: string): (r: string)
    ensures |r| == |s|
    ensures forall k :: 0 <= k < |s| ==> r[k] == LowerChar(s[k])
  {
    seq(|s|, k requires 0 <= k < |s| => LowerChar(s[k]))
  }

  /** Lower-casing a string that already ends with a lower-case suffix keeps
      that suffix. */
  lemma LowerKeepsLowerSuffix(s: string, p: string)
    requires forall k :: 0 <= k < |p| ==> LowerChar(p[k]) == p[k]
    ensures EndsWith(s, p) ==> EndsWith(Lower(s), p)
  {
    if EndsWith(s, p) {
      forall k | 0 <= k < |p|
        ensures Lower(s)[|s| - |p|..][k] == p[k]
      {
        assert s[|s| - |p|..][k] == p[k];
      }
    }
  }

  predicate IsDigit(c: char) {
    '0' <= c <= '9'
  }

  /** Python's `s.isdigit()` on ASCII digits: non-empty and all digits. */
  predicate AllDigits(s: string) {
    |s| > 0 && forall k :: 0 <= k < |s| ==> IsDigit(s[k])
  }

  function Pow10(k: nat): (p: nat)
    ensures p >= 1
  {
    if k == 0 then 1 else 10 * Pow10(k - 1)
  }

  /** Python's `str(n)` for a natural number. */
  function NatToString(n: nat): (r: string)
    ensures AllDigits(r)
    ensures |r| == 1 || r[0] != '0'
  {
    if n < 10 then [('0' as int + n) as char]
    else
      var d := ('0' as int + n % 10) as char;
      NatToString(n / 10) + [d]
  }

  /** Python's `str(i)` for any integer. */
  function IntToString(i: int): (r: string)
    ensures i >= 0 ==> AllDigits(r)
    ensures i < 0 ==> |r| > 1 && r[0] == '-'
  {
    if i < 0 then "-" + NatToString(-i) else NatToString(i)
  }

  /** `str(n)` has more than `k` digits exactly when `n >= 10^k`. */
  lemma {:induction false} NatToStringLength(n: nat, k: nat)
    requires k >= 1
    ensures |NatToString(n)| >= k + 1 <==> n >= Pow10(k)
    decreases n
  {
    if n >= 10 {
      if k >= 2 {
        NatToStringLength(n / 10, k - 1);
      }
    } else {
      if k >= 2 {
        assert Pow10(k) == 10 * Pow10(k - 1);
      }
    }
  }

  // ---------------------------------------------------------------------
  // os.path.join and sorted()
  // ---------------------------------------------------------------------

  /** POSIX `os.path.join(dir, name)`: an absolute `name` replaces `dir`;
      otherwise a single '/' separates the two. */
  function PathJoin(dir: string, name: string): (r: string)
    ensures EndsWith(r, name)
    ensures StartsWith(name, "/") ==> r == name
    ensures !StartsWith(name, "/") && dir != "" ==> StartsWith(r, dir)
  {
    if StartsWith(name, "/") then name
    else if dir == "" || EndsWith(dir, "/") then dir + name
    else dir + "/" + name
  }

  /** The code-point lexicographic order Python uses to compare strings
      (so `sorted` of a list of names). */
  predicate LexLe(a: string, b: string)
    decreases |a|
  {
    |a| == 0 || (|b| > 0 && (a[0] < b[0] || (a[0] == b[0] && LexLe(a[1..], b[1..]))))
  }

  lemma {:induction false} LexLeReflexive(a: string)
    ensures LexLe(a, a)
    decreases |a|
  {
    if |a| > 0 {
      LexLeReflexive(a[1..]);
    }
  }

  lemma {:induction false} LexLeTotal(a: string, b: string)
    ensures LexLe(a, b) || LexLe(b, a)
    decreases |a|
  {
    if |a| > 0 && |b| > 0 && a[0] == b[0] {
      LexLeTotal(a[1..], b[1..]);
    }
  }

  lemma {:induction false} LexLeTransitive(a: string, b: string, c: string)
    requires LexLe(a, b) && LexLe(b, c)
    ensures LexLe(a, c)
    decreases |a|
  {
    if |a| > 0 && a[0] == b[0] && b[0] == c[0] {
      LexLeTransitive(a[1..], b[1..], c[1..]);
    }
  }

  /** Each name is ordered before the next (hence before every later one,
      by `SortedAll`). */
  predicate Sorted(xs: seq<string>)
    decreases |xs|
  {
    |xs| <= 1 || (LexLe(xs[0], xs[1]) && Sorted(xs[1..]))
  }

  /** In a sorted list every earlier name is ordered before every later one. */
  lemma {:induction false} SortedAll(xs: seq<string>, i: nat, j: nat)
    requires Sorted(xs) && i <= j < |xs|
    ensures LexLe(xs[i], xs[j])
    decreases j
  {
    if i == j {
      LexLeReflexive(xs[i]);
    } else if i == 0 {
      SortedAll(xs[1..], 0, j - 1);
      LexLeTransitive(xs[0], xs[1], xs[j]);
    } else {
      SortedAll(xs[1..], i - 1, j - 1);
    }
  }

  /** Insert a name into a sorted list, before the first name it is ordered
      before. */
  function Insert(x: string, xs: seq<string>): (r: seq<string>)
    requires Sorted(xs)
    ensures |r| == |xs| + 1
    ensures multiset(r) == multiset(xs) + multiset{x}
    ensures r[0] == x || (|xs| > 0 && r[0] == xs[0])
    ensures Sorted(r)
    decreases |xs|
  {
    if |xs| == 0 || LexLe(x, xs[0]) then
      assert ([x] + xs)[1..] == xs;
      [x] + xs
    else
      LexLeTotal(x, xs[0]);
      var rest := Insert(x, xs[1..]);
      assert xs == [xs[0]] + xs[1..];
      assert ([xs[0]] + rest)[1..] == rest;
      [xs[0]] + rest
  }

  /** Python's `sorted` on a list of names: the same names, in order. */
  function SortNames(xs: seq<string>): (r: seq<string>)
    ensures |r| == |xs|
    ensures multiset(r) == multiset(xs)
    ensures Sorted(r)
    decreases |xs|
  {
    if |xs| == 0 then []
    else
      assert xs == [xs[0]] + xs[1..];
      Insert(xs[0], SortNames(xs[1..]))
  }
}

=== FILE: wanfang.dfy ===
/** The rules of the Wanfang link checker and downloader (wanfang.py): the
    liveness check of a link, the article id and output name taken from the
    URL, the skip when that file already exists, the 404 page, the polling
    of Chrome's download directory, and the collection of links and the
    summary in the driver.

    Chrome, `requests` and the spreadsheet are not modelled: what they
    report is passed in as observations. */
module Wanfang {
  import opened Wrappers
  import opened Text
  import opened Files
  import opened Seqs

  const Slash: string := "/"
  const AspxExt: string := ".aspx"
  const PdfExt: string := ".pdf"
  const Marker404: string := "404"
  const NotFoundText: string := "Not Found"

  // ---------------------------------------------------------------------
  // check_url_with_browser_simulation
  // ---------------------------------------------------------------------

  /** What `requests.get` gives back: a `RequestException`, or the final
      status code and text after redirects. */
  datatype Response = RequestError | Response(status: int, body: string)

  /** The link is live: status 200 and a body that is not all whitespace. */
  function CheckUrl(r: Response): (ok: bool)
    ensures ok <==> r.Response? && r.status == 200 && !IsBlank(r.body)
  {
    match r
    case RequestError => false
    case Response(status, body) =>
      if status != 200 then false
      else Strip(body) != ""
  }

  // ---------------------------------------------------------------------
  // Article id, output name, 404 page
  // ---------------------------------------------------------------------

  /** `detail_url.split('/')[-1].replace('.aspx', '')`. */
  function ArticleId(url: string): (id: string)
    ensures '/' !in id
    ensures !Contains(url, Slash) && !Contains(url, AspxExt) ==> id == url
  {
    var last := LastPiece(url, Slash);
    ContainsChar(last, '/');
    RemovalKeepsOut(last, AspxExt, '/');
    ReplaceAll(last, AspxExt, "")
  }

  /** Deleting every occurrence of a pattern never introduces a character. */
  lemma RemovalKeepsOut(s: string, pat: string, c: char)
    requires pat != "" && c !in s
    ensures c !in ReplaceAll(s, pat, "")
  {
    var parts := Split(s, pat);
    forall k | 0 <= k < |parts|
      ensures c !in parts[k]
    {
      PieceIsInfix(parts, pat, k);
    }
    JoinEmptyLacks(parts, c);
  }

  /** Every part of a join sits between some text on either side. */
  lemma {:induction false} PieceIsInfix(parts: seq<string>, sep: string, k: nat)
    requires k < |parts|
    ensures exists pre, post :: JoinWith(parts, sep) == pre + parts[k] + post
    decreases |parts|
  {
    if |parts| == 1 {
      assert JoinWith(parts, sep) == "" + parts[0] + "";
    } else if k == 0 {
      assert JoinWith(parts, sep) == "" + parts[0] + (sep + JoinWith(parts[1..], sep));
    } else {
      PieceIsInfix(parts[1..], sep, k - 1);
      var pre, post :| JoinWith(parts[1..], sep) == pre + parts[1..][k - 1] + post;
      assert JoinWith(parts, sep) == (parts[0] + sep + pre) + parts[k] + post;
    }
  }

  /** Parts without `c`, joined with nothing between them, are without `c`. */
  lemma {:induction false} JoinEmptyLacks(parts: seq<string>, c: char)
    requires forall k :: 0 <= k < |parts| ==> c !in parts[k]
    ensures c !in JoinWith(parts, "")
    decreases |parts|
  {
    if |parts| > 1 {
      JoinEmptyLacks(parts[1..], c);
    }
  }

  /** The name the article is saved under. */
  function OutputName(url: string): string {
    ArticleId(url) + PdfExt
  }

  /** The id of a `.../<id>.aspx` link whose id holds neither `/` nor
      `.aspx` is that id. */
  lemma ArticleIdOfDetailUrl(prefix: string, id: string)
    requires '/' !in id && !Contains(id, AspxExt)
    ensures ArticleId(prefix + Slash + id + AspxExt) == id
  {
    var s := id + AspxExt;
    assert prefix + Slash + id + AspxExt == prefix + Slash + s;
    LastSegment(prefix, s);
    DropAspx(id);
  }

  /** Deleting ".aspx" from `id.aspx` leaves `id` when `id` holds none. */
  lemma DropAspx(id: string)
    requires !Contains(id, AspxExt)
    ensures ReplaceAll(id + AspxExt, AspxExt, "") == id
  {
    HeadUniqueNoBorder(AspxExt);
    ReplaceAtEnd(id, AspxExt, "");
    assert ReplaceAll(id, AspxExt, "") == id;
    assert id + "" == id;
  }

  /** The last `/`-segment of `prefix/s` is `s` when `s` holds no `/`. */
  lemma LastSegment(prefix: string, s: string)
    requires '/' !in s
    ensures LastPiece(prefix + Slash + s, Slash) == s
  {
    ContainsChar(s, '/');
    HeadUniqueNoBorder(Slash);
    LastPieceAfterSep(prefix, Slash, s);
  }

  /** `check_for_404`: the title mentions 404 or the source says Not Found. */
  predicate Is404(title: string, source: string) {
    Contains(title, Marker404) || Contains(source, NotFoundText)
  }


  // ---------------------------------------------------------------------
  // download_pdf
  // ---------------------------------------------------------------------

  /** One pass of the 600 s loop: the listing of the download directory,
      the two size readings of its first entry, that entry's bytes, and
      whether `shutil.move` succeeded. */
  datatype Poll = Poll(listing: seq<string>, sizes: Sizes, content: Bytes, moveOk: bool)

  /** How a call of `download_pdf` (or `check_and_download`) ends. */
  datatype Outcome =
    | UrlRejected             // the liveness check failed
    | AlreadyPresent          // returns True before any browser
    | BrowserRaised           // Chrome did not start; the exception escapes
    | Page404
    | Errored                 // any exception inside the guarded block
    | TimedOut
    | Saved(content: Bytes)

  /** The call returns True. `BrowserRaised` returns nothing: the exception
      propagates to the caller. */
  predicate Succeeded(o: Outcome) {
    o.AlreadyPresent? || o.Saved?
  }

  /** One pass: `None` when the loop goes round again. Unlike the CNKI
      loop, an `OSError` from a size reading or the move is not caught
      inside the loop: it ends the call. */
  function PollStep(p: Poll): (o: Option<Outcome>)
    ensures o.Some? ==> |p.listing| > 0
    ensures o.None? <==> |p.listing| == 0 || (p.sizes.Sizes? && !Stable(p.sizes))
    ensures (o.Some? && o.value.Saved?) <==> |p.listing| > 0 && Stable(p.sizes) && p.moveOk
    ensures o == Some(Errored) <==> |p.listing| > 0 && (p.sizes.SizeError? || (Stable(p.sizes) && !p.moveOk))
    ensures o.Some? && o.value.Saved? ==> o.value.content == p.content
  {
    if |p.listing| == 0 then None
    else match p.sizes
      case SizeError => Some(Errored)
      case Sizes(s1, s2) =>
        if s1 == s2 && s1 > 0 then
          (if p.moveOk then Some(Saved(p.content)) else Some(Errored))
        else None
  }

  predicate Decides(p: Poll) {
    PollStep(p).Some?
  }

  /** The loop over the passes that fit in the 600 s budget. */
  function PollLoop(polls: seq<Poll>): (o: Outcome)
    ensures o == TimedOut <==> forall k :: 0 <= k < |polls| ==> !Decides(polls[k])
    ensures o.Saved? ==> FirstWhere(polls, Decides) < |polls|
                         && Stable(polls[FirstWhere(polls, Decides)].sizes)
                         && o.content == polls[FirstWhere(polls, Decides)].content
    ensures o != TimedOut ==> FirstWhere(polls, Decides) < |polls|
                              && o == PollStep(polls[FirstWhere(polls, Decides)]).value
  {
    var k := FirstWhere(polls, Decides);
    if k < |polls| then PollStep(polls[k]).value else TimedOut
  }

  /** What the Chrome session observed; `page` is `None` when loading the
      page raised, otherwise the title and source. */
  datatype Session = Session(page: Option<(string, string)>, polls: seq<Poll>)

  /** A call and the target directory afterwards. */
  datatype Run = Run(outcome: Outcome, dir: Dir)

  /** `download_pdf(detail_url, target_dir)`; `browser` is `None` when
      Chrome failed to start. */
  function DownloadPdf(url: string, dir: Dir, browser: Option<Session>): (r: Run)
    ensures NameExists(dir, OutputName(url)) ==> r == Run(AlreadyPresent, dir)
    ensures r.outcome.Saved? ==> !NameExists(dir, OutputName(url))
                                 && r.dir == dir + [DirEntry(OutputName(url), r.outcome.content)]
    ensures !r.outcome.Saved? ==> r.dir == dir
    ensures r.outcome != UrlRejected
    ensures !NameExists(dir, OutputName(url)) ==>
              (browser.None? ==> r.outcome == BrowserRaised)
              && (browser.Some? && browser.value.page.None? ==> r.outcome == Errored)
    ensures (!NameExists(dir, OutputName(url)) && browser.Some? && browser.value.page.Some?) ==>
              r.outcome == (if Is404(browser.value.page.value.0, browser.value.page.value.1) then Page404
                            else PollLoop(browser.value.polls))
  {
    var name := OutputName(url);
    if NameExists(dir, name) then Run(AlreadyPresent, dir)
    else match browser
      case None => Run(BrowserRaised, dir)
      case Some(s) =>
        match s.page
        case None => Run(Errored, dir)
        case Some(tp) =>
          if Is404(tp.0, tp.1) then Run(Page404, dir)
          else
            var o := PollLoop(s.polls);
            if o.Saved? then Run(o, dir + [DirEntry(name, o.content)]) else Run(o, dir)
  }

  /** Any title with "404" in it marks the page as missing, whatever the
      page source says, so a call for a fresh name ends with `Page404`
      and leaves the directory untouched. */
  lemma TitleWith404(url: string, dir: Dir, before: string, after: string, source: string,
                     polls: seq<Poll>)
    requires !NameExists(dir, OutputName(url))
    ensures Is404(before + Marker404 + after, source)
    ensures DownloadPdf(url, dir, Some(Session(Some((before + Marker404 + after, source)), polls)))
              == Run(Page404, dir)
  {
    ContainsMiddle(before, Marker404, after);
  }

  /** A found page whose first deciding pass reads the same non-zero size
      twice and moves the file saves that file's bytes under the output
      name. */
  lemma StableMoveSaves(url: string, dir: Dir, s: Session)
    requires !NameExists(dir, OutputName(url))
    requires s.page.Some? && !Is404(s.page.value.0, s.page.value.1)
    requires FirstWhere(s.polls, Decides) < |s.polls|
    requires var p := s.polls[FirstWhere(s.polls, Decides)];
             Stable(p.sizes) && p.moveOk
    ensures var p := s.polls[FirstWhere(s.polls, Decides)];
            DownloadPdf(url, dir, Some(s)) == Run(Saved(p.content), dir + [DirEntry(OutputName(url), p.content)])
  {
  }

  /** A 404 page never downloads: the directory is untouched and the call
      succeeds only if the file was there already. */
  lemma Page404NeverDownloads(url: string, dir: Dir, s: Session)
    requires s.page.Some? && Is404(s.page.value.0, s.page.value.1)
    ensures var r := DownloadPdf(url, dir, Some(s));
            r.dir == dir && (Succeeded(r.outcome) <==> NameExists(dir, OutputName(url)))
  {
  }

  /** `check_and_download`: the liveness check comes first. */
  function CheckAndDownload(url: string, dir: Dir, resp: Response, browser: Option<Session>): (r: Run)
    ensures !CheckUrl(resp) ==> r == Run(UrlRejected, dir)
    ensures CheckUrl(resp) ==> r == DownloadPdf(url, dir, browser)
  {
    if !CheckUrl(resp) then Run(UrlRejected, dir) else DownloadPdf(url, dir, browser)
  }

  /** Because the liveness check runs first, a file that is already in
      place does not make `check_and_download` succeed when its link is
      dead, although `download_pdf` alone would return True. */
  lemma DeadLinkFailsEvenIfPresent(url: string, dir: Dir, resp: Response, browser: Option<Session>)
    requires NameExists(dir, OutputName(url)) && !CheckUrl(resp)
    ensures !Succeeded(CheckAndDownload(url, dir, resp, browser).outcome)
    ensures Succeeded(DownloadPdf(url, dir, browser).outcome)
  {
  }

  // ---------------------------------------------------------------------
  // main: collecting links and the summary
  // ---------------------------------------------------------------------

  /** A cell of the `link` column that is kept: present and not empty
      (before stripping). */
  predicate KeptCell(c: Option<string>) {
    c.Some? && c.value != ""
  }

  /** The loop over the rows: kept cells, stripped, in row order. */
  method CollectLinks(cells: seq<Option<string>>) returns (links: seq<string>)
    ensures forall l :: l in links <==> exists i :: 0 <= i < |cells| && KeptCell(cells[i]) && Strip(cells[i].value) == l
    ensures |links| <= |cells|
  {
    links := [];
    var i := 0;
    while i < |cells|
      invariant 0 <= i <= |cells|
      invariant |links| <= i
      invariant forall l :: l in links <==> exists j :: 0 <= j < i && KeptCell(cells[j]) && Strip(cells[j].value) == l
    {
      var url := cells[i];
      if KeptCell(url) {
        links := links + [Strip(url.value)];
      }
      i := i + 1;
    }
  }

  /** How the driver ends. */
  datatype MainEnd =
    | NoLinks                            // warns and returns
    | Crashed                            // an uncaught exception
    | Done(success: nat, failure: nat)

  /** `success = sum(...)`, `failure = len(results) - success` over the
      distinct links; `ok` is each link's result. */
  function Summary(links: set<string>, ok: string -> bool): (r: MainEnd)
    ensures r.Done? && r.success + r.failure == |links|
    ensures r.success == |set l | l in links && ok(l)|
    ensures r.failure == |set l | l in links && !ok(l)|
  {
    var good := set l | l in links && ok(l);
    var bad := set l | l in links && !ok(l);
    assert links == good + bad;
    assert good * bad == {};
    Done(|good|, |links| - |good|)
  }

  /** The attributes `parse_args` gives `args`: the three options the
      argument parser of `main` defines. */
  const ParserOptions: set<string> := {"excel", "target_dir", "threads"}
  const DriverPathOption: string := "driver_path"

  /** The driver once the links are collected. `options` are the attributes
      of `args`; `outcome` is what `check_and_download` does for each link.
      The links are de-duplicated through a set. Submitting the first task
      reads `args.driver_path`, which raises `AttributeError` when the parser
      did not define it; otherwise a `BrowserRaised` escapes from its task
      and `fut.result()` raises it again, so the run ends before the
      summary. */
  function Main(options: set<string>, links: seq<string>, outcome: string -> Outcome): (r: MainEnd)
    ensures r == NoLinks <==> |links| == 0
    ensures r == Crashed <==> |links| > 0 && (DriverPathOption !in options
                                              || exists l :: l in links && outcome(l) == BrowserRaised)
    ensures r.Done? ==> r.success + r.failure == |set l | l in links|
                        && r.success == |set l | l in links && Succeeded(outcome(l))|
  {
    var distinct := set l | l in links;
    DistinctEmpty(links);
    if distinct == {} then NoLinks
    else if DriverPathOption !in options then Crashed
    else if exists l :: l in distinct && outcome(l) == BrowserRaised then Crashed
    else
      var ok := l => Succeeded(outcome(l));
      assert (set l | l in distinct && ok(l)) == (set l | l in links && Succeeded(outcome(l)));
      Summary(distinct, ok)
  }

  /** The driver as written, with the parser's three options. */
  function MainAsWritten(links: seq<string>, outcome: string -> Outcome): MainEnd {
    Main(ParserOptions, links, outcome)
  }

  /** The distinct links are empty only when there are no links. */
  lemma DistinctEmpty(links: seq<string>)
    ensures (set l | l in links) == {} <==> |links| == 0
  {
    var d := set l | l in links;
    if |links| > 0 {
      assert links[0] in d;
    } else {
      assert forall x :: x !in d;
    }
  }

  /** Whenever there is a link to process, the driver as written crashes,
      whatever each link would have done: `driver_path` is not among the
      parser's options. */
  lemma MainAsWrittenCrashes(links: seq<string>, outcome: string -> Outcome)
    requires |links| > 0
    ensures MainAsWritten(links, outcome) == Crashed
  {
    assert DriverPathOption !in ParserOptions by {
      assert DriverPathOption[0] == 'd';
      assert "excel"[0] == 'e' && "target_dir"[0] == 't' && "threads"[0] == 't';
    }
  }

  /** The driver with a `--driver_path` option (default none): every
      distinct link is checked once; the run crashes exactly when some link
      fails to start Chrome, and otherwise success and failure add up to the
      number of distinct links. */
  function MainCorrected(links: seq<string>, outcome: string -> Outcome): (r: MainEnd)
    ensures |links| == 0 <==> r == NoLinks
    ensures r == Crashed <==> exists l :: l in links && outcome(l) == BrowserRaised
    ensures r.Done? ==> r.success + r.failure == |set l | l in links|
                        && r.success == |set l | l in links && Succeeded(outcome(l))|
  {
    Main(ParserOptions + {DriverPathOption}, links, outcome)
  }
}

=== FILE: wrappers.dfy ===
/** Small failure-compatible wrapper shared by every module of the model. */
module Wrappers {

  /** A value that may be absent: a missing dictionary key, a missing
      spreadsheet cell, an element without the attribute asked for. */
  datatype Option<+T> = None | Some(value: T) {

    /** The wrapped value, or `default` when absent (Python's `d.get(k, default)`). */
    function GetOr(default: T): T {
      match this
      case Some(v) => v
      case None => default
    }
  }
}
